=== FILE: README.md ===
# CHIP-8 interpreter core, modelled in Dafny

A model of the interpreter of a Ruby CHIP-8 emulator. It covers the
`Emulator::Emulator` class (`emulator/emulator.rb`) and the framebuffer
`Emulator::DisplayBuffer` (`emulator/display_buffer.rb`), with proofs of what
each operation does.

The machine state is an immutable `Machine.State`. It holds:

- the memory array;
- sixteen byte registers V0 to VF;
- the index register I and the program counter;
- the return stack;
- the delay and sound timers;
- the one optional pressed key;
- the `Display.Buffer` of 2048 cells and its dirty flag.

Every operation is a pure function from one state to the next:

- `Emulator.new`, `load_data`, `fetch_opcode`, `cycle`, `execute_opcode`, the timer decrements and `pressed_key=`;
- `DisplayBuffer.new`, `reset`, `set_pixel` and `clear_dirty!`.

`dirty?` is the buffer's `dirty` field.

Files, one module each:

| file | module | what it holds |
|---|---|---|
| `bits.dfy` | `Bits` | byte, nibble, address and word types; Ruby's `\|`, `&`, `^` on naturals, with per-bit lemmas |
| `display.dfy` | `Display` | the framebuffer |
| `opcodes.dfy` | `Opcodes` | the if/elsif chain of `execute_opcode` as `Decode` into an instruction datatype; `Encode` and the round trips |
| `machine.dfy` | `Machine` | the state, construction, `load_data`, `fetch_opcode`, the timers, the keypad setter |
| `sprite.dfy` | `Sprite` | the pixel loops of DXYN as a fold of `set_pixel`, and what they do to the buffer |
| `interpreter.dfy` | `Interpreter` | one function per instruction family; `Execute` (the dispatcher); `Cycle` |
| `properties.dfy` | `Properties` | properties over several instructions or cycles |

The model follows the code as written, including behaviour a CHIP-8
programmer might not expect.

**Drawing.** `set_pixel` overwrites the cell instead of XOR-ing into it. It
reports `true` only when the cell changed. DXYN sets VF to 1 whenever some call
returns false, meaning the pixel was clipped or already held its bit. Drawing
the same sprite twice therefore erases nothing and sets VF (`Properties.DrawTwice`).
Pixels past the right or bottom edge are clipped, not wrapped.

**Registers.**
- 8XY6 and 8XYE shift VX in place and ignore VY.
- 8XY1 to 8XY3 leave VF alone.
- VF is written after VX, so when X is F the flag wins.
- 7XNN adds the whole opcode before masking, because `&` binds more loosely than `+` in Ruby; the result equals VX + NN mod 256.

**Index and memory.**
- FX29 uses the digit X itself, not the value of VX.
- FX55 and FX65 do not move I.
- BNNN adds V0 without wrapping, so the program counter can reach 0x10FE.

**Keypad.** FX0A accepts whichever key is held. With none, it steps the program counter back so that the next cycle runs it again.

**In short.** The code overwrites pixels instead of XOR-ing, has no quirk
flags, clips instead of wrapping, and FX0A accepts whichever key is held; the
model follows the code.

**Ruby semantics.** Memory is a Ruby array. A write one past its end appends,
and the model does the same: `Machine.Overwrite` grows the sequence. So
`load_data`, which accepts up to 4096 bytes although only 3584 fit after 0x200,
is modelled without a precondition and may grow the memory. Reading past the
end yields `nil` in Ruby, and `nil` then crashes the interpreter or ends up in
a register. Popping an empty stack gives `nil` too, as does writing more than
one past the end (Ruby pads the gap with `nil`). The model turns each of these
cases into a precondition:

- `Fetch` needs pc + 1 inside memory;
- 00EE needs a non-empty stack;
- DXYN needs I + N inside memory;
- FX65 needs I + X inside memory;
- FX33 and FX55 need I at most one past the end;
- FX0A with no key needs pc >= 2, which always holds after a fetch.

`Interpreter.CanCycle` collects these conditions; the per-instruction ones are `Interpreter.Defined`.

Masking with `& 0xFF` and `& 0xFFFF` is written as `% 256` and `% 65536`.
For the operands that reach those masks, negative ones included, the two agree.

## Model

| member | source | states |
|---|---|---|
| Display.New | emulator/display_buffer.rb:8-11 | a new buffer has 2048 cells, all 0, and is not dirty |
| Display.Reset | emulator/display_buffer.rb:13-19 | every cell becomes 0 and the buffer is dirty, whatever it held before |
| Display.SetPixel | emulator/display_buffer.rb:21-30 | out-of-range coordinates and an unchanged value return false and leave the buffer, dirty flag included, exactly as it was; otherwise cell y*64+x takes the value (overwrite), the call returns true, the buffer turns dirty and no other cell changes |
| Display.ClearDirty | emulator/display_buffer.rb:36-38 | the dirty flag is cleared and the cells are untouched |
| Display.SetPixelIdempotent | emulator/display_buffer.rb:24-25 | a second identical `set_pixel` changes nothing and returns false |
| Display.SetPixelKeepsBinary | emulator/display_buffer.rb:27 | writing 0 or 1 into a buffer of 0s and 1s keeps every cell 0 or 1 |
| Bits.OrByte | emulator/emulator.rb:82 | `\|` on bytes: bit i of the result is set exactly when it is set in either operand |
| Bits.AndByte | emulator/emulator.rb:84 | `&` on bytes: bit i of the result is set exactly when it is set in both operands |
| Bits.TopBit | emulator/emulator.rb:106 | on a byte, `value >> 7` is bit 7 of the value |
| Bits.XorByte | emulator/emulator.rb:86 | `^` on bytes: bit i of the result is set exactly when it is set in one operand only |
| Opcodes.Decode | emulator/emulator.rb:46-51 | an opcode no branch accepts is kept whole in the `Unknown` case |
| Opcodes.DecodeEncode | emulator/emulator.rb:52-169 | each instruction the chain knows is decoded back from its opcode |
| Opcodes.EncodeDecode | emulator/emulator.rb:52-169 | re-encoding a decoded opcode gives it back, except for the fields the chain ignores (N of 5XYN and 9XYN, Y of 8XY6 and 8XYE) |
| Opcodes.DecodeUnknown | emulator/emulator.rb:52-171 | an opcode reaches the final `else` exactly when it is 0NNN other than 00E0 and 00EE, 8XY8 to 8XYD or 8XYF, EX__ other than 9E and A1, or FX__ with a low byte outside the nine handled ones |
| Machine.Overwrite | emulator/emulator.rb:30-32 | assigning bytes one after another from an index at most one past the end puts each byte in place, grows the array as needed and leaves the other cells alone |
| Machine.InitialMemory | emulator/emulator.rb:226-232 | 4096 cells, the 80 glyph bytes at 0x50 to 0x9F, every other cell 0 |
| Machine.New | emulator/emulator.rb:13-23 | pc 0x200, I 0, empty stack, sixteen zero registers, both timers 0, no key, fonts at 0x50 and zeros elsewhere, a new display buffer |
| Machine.LoadData | emulator/emulator.rb:25-33 | the three checks in order (not an array, longer than 4096, a non-byte element) each give their error, and only they do; on success byte k sits at 0x200 + k, every other cell keeps its value, the array grows past 4096 for programs longer than 3584 bytes, and nothing else in the state changes |
| Machine.Fetch | emulator/emulator.rb:40-44 | the opcode's high byte is the cell at pc and its low byte the next cell; pc rises by exactly 2 and nothing else changes |
| Machine.DecrementDelayTimer | emulator/emulator.rb:175-179 | the delay timer falls by one when positive and stays at 0 otherwise; nothing else changes |
| Machine.DecrementSoundTimer | emulator/emulator.rb:181-185 | the sound timer falls by one when positive and stays at 0 otherwise; nothing else changes |
| Machine.TimersAfterTicks | emulator/emulator.rb:175-185 | after n ticks of both timers each is max(t - n, 0), so it never goes negative, and nothing else changes |
| Machine.SetPressedKey | emulator/emulator.rb:187-189 | the key input is replaced and nothing else changes |
| Machine.FetchAfterLoad | emulator/emulator.rb:25-44 | loading [1, 2] into a new interpreter succeeds, and fetching then yields 0x0102 and pc 0x202 |
| Sprite.SpriteWrites | emulator/emulator.rb:122-131 | the draw loops issue 8 calls per row, and call 8r + c is `set_pixel(x + c, y + r, bit 7 - c of row r)` |
| Sprite.BlitFlag | emulator/emulator.rb:120-131 | over calls to distinct coordinates, some call returns false exactly when some pixel, against the buffer before the first call, is clipped or already holds its value |
| Sprite.BlitDirty | emulator/display_buffer.rb:21-30 | over calls to distinct coordinates, the buffer ends dirty exactly when it was dirty or some pixel changes |
| Sprite.BlitWritten | emulator/display_buffer.rb:27 | over calls to distinct coordinates, each pixel on screen ends holding the value written to it |
| Sprite.BlitUntouched | emulator/display_buffer.rb:21-30 | a cell no call lands on keeps its value |
| Sprite.BlitAllMiss | emulator/display_buffer.rb:22-25 | when every call would return false the buffer is left exactly as it was |
| Sprite.SpriteFlag | emulator/emulator.rb:120-131 | drawing a sprite makes some `set_pixel` call return false exactly when some pixel of it is clipped or already holds its bit |
| Sprite.SpriteDirty | emulator/emulator.rb:122-131 | drawing leaves the buffer dirty exactly when it was dirty or some pixel of the sprite changes |
| Sprite.SpriteWritten | emulator/emulator.rb:122-131 | every pixel of the sprite that lands on screen takes its bit (overwrite, not XOR) |
| Sprite.SpriteUntouched | emulator/emulator.rb:122-131 | every cell outside the sprite's 8-wide rectangle keeps its value |
| Sprite.Draw | emulator/emulator.rb:122-132 | the two loops of DXYN together: the flag, the dirty flag, the pixels on screen and the untouched cells as above |
| Sprite.RedrawChangesNothing | emulator/emulator.rb:122-132 | drawing a sprite again over itself leaves the buffer unchanged and every call returns false |
| Interpreter.ReturnFromSubroutine | emulator/emulator.rb:54-55 | the address on top of the stack goes to pc and the rest of the stack stays; nothing else changes |
| Interpreter.CallSubroutine | emulator/emulator.rb:58-60 | the stack gains the already-advanced pc on top, pc becomes NNN; nothing else changes |
| Interpreter.CallThenReturn | emulator/emulator.rb:54-60 | a return right after a call restores the state, so nested calls unwind in LIFO order |
| Interpreter.AddImmediate | emulator/emulator.rb:76-78 | adding the whole opcode and masking gives VX + NN wrapped to a byte; no other register, VF included, changes |
| Interpreter.AddRegisters | emulator/emulator.rb:87-90 | VF is 1 exactly when VX + VY exceeds 255, and for X other than F the wrapped sum plus 256 times VF is the unwrapped sum; other registers keep their values |
| Interpreter.Subtract | emulator/emulator.rb:91-96 | VF is 1 exactly when the minuend is at least the subtrahend, and for X other than F the result minus 256 for a borrow is the true difference; used for 8XY5 and 8XY7 |
| Interpreter.ShiftRightInPlace | emulator/emulator.rb:97-103 | VF is bit 0 of VX, and for X other than F twice the result plus VF is the old VX |
| Interpreter.ShiftLeftInPlace | emulator/emulator.rb:104-107 | VF is bit 7 of the old VX (also when X is F, since VF is written last), and for X other than F the result plus 256 times VF is twice the old VX |
| Interpreter.OrInto | emulator/emulator.rb:81-82 | each bit of VX becomes the OR of the bits of VX and VY; every other register, VF included, keeps its value |
| Interpreter.AndInto | emulator/emulator.rb:83-84 | each bit of VX becomes the AND of the bits of VX and VY; every other register keeps its value |
| Interpreter.XorInto | emulator/emulator.rb:85-86 | each bit of VX becomes the XOR of the bits of VX and VY; every other register keeps its value |
| Interpreter.RandomMasked | emulator/emulator.rb:114-115 | bit i of VX is set exactly when it is set in both the random value and NN; other registers keep their values |
| Interpreter.DrawSprite | emulator/emulator.rb:116-132 | VF ends 0 or 1, and 1 exactly when some pixel of the sprite (rows from I, anchored at VX mod 64, VY mod 32) is clipped or already holds its bit; every pixel on screen takes its bit, cells outside the sprite keep their values, the buffer turns dirty exactly when some pixel changes, V0 to VE and everything else are unchanged; N = 0 leaves VF 0 and the buffer as it was |
| Interpreter.WaitForKey | emulator/emulator.rb:139-145 | with a key held VX gets its code; with none pc steps back by 2 and nothing else changes |
| Interpreter.AddToIndex | emulator/emulator.rb:152-153 | I becomes I + VX, less 65536 when that overflows 16 bits, and stays below 65536 |
| Interpreter.PointToGlyph | emulator/emulator.rb:154-155 | I becomes 0x50 + 5X, which lies inside the glyph table, and while the table is intact the five bytes at I are the glyph of digit X |
| Interpreter.StoreBcd | emulator/emulator.rb:156-161 | the three bytes at I are decimal digits, the first at most 2, whose value 100h + 10t + u is VX; no other cell changes |
| Interpreter.StoreRegisters | emulator/emulator.rb:162-165 | cell I + k holds Vk for k up to X, no other cell changes, and I does not move |
| Interpreter.LoadRegisters | emulator/emulator.rb:166-169 | Vk holds cell I + k for k up to X, the other registers keep their values, and I does not move |
| Interpreter.Blank | emulator/emulator.rb:52-53 | 00E0 leaves every cell 0 and the display dirty, and changes nothing outside the display |
| Interpreter.ExecuteSkip | emulator/emulator.rb:61-138 | 3XNN, 4XNN, 5XY0, 9XY0, EX9E and EXA1 move pc by exactly 2 when their condition holds and otherwise change nothing |
| Interpreter.ExecuteControl | emulator/emulator.rb:52-113 | 00E0, 00EE, 1NNN, 2NNN, BNNN and the skips touch only what they own; 00E0 leaves every cell 0 and the display dirty, 00EE is `ReturnFromSubroutine`, 2NNN is `CallSubroutine` with NNN, 1NNN sets pc to NNN, BNNN to NNN + V0, and a skip moves pc by exactly 2 when its condition holds and otherwise changes nothing |
| Interpreter.ExecuteRegisterWrite | emulator/emulator.rb:74-86 | 6XNN, 7XNN, 8XY0 to 8XY3 and CXNN change no register but VX and nothing outside the registers; 6XNN sets VX to NN, 8XY0 sets VX to VY, and 7XNN, 8XY1, 8XY2, 8XY3 and CXNN leave exactly the registers that `AddImmediate`, `OrInto`, `AndInto`, `XorInto` and `RandomMasked` compute from the decoded X, Y, NN and the random value |
| Interpreter.ExecuteFlagged | emulator/emulator.rb:87-107 | 8XY4 to 8XYE change no register but VX and VF and nothing outside the registers; the registers become `AddRegisters` of X, Y for 8XY4, `Subtract` of VX minus VY for 8XY5 and of VY minus VX for 8XY7, and the right and left in-place shift of VX for 8XY6 and 8XYE |
| Interpreter.ExecuteOther | emulator/emulator.rb:108-172 | ANNN, DXYN, the FX group and unknown opcodes touch only what they own; ANNN sets I to NNN, FX07 sets VX to the delay timer, FX15 and FX18 set the delay and sound timers to VX, DXYN, FX0A, FX1E, FX29, FX33, FX55 and FX65 give the state their helper (`DrawSprite`, `WaitForKey`, `AddToIndex`, `PointToGlyph`, `StoreBcd`, `StoreRegisters`, `LoadRegisters`) computes from the decoded X, Y and N, and an unknown opcode changes nothing |
| Interpreter.Execute | emulator/emulator.rb:46-172 | every instruction keeps the state well formed and the key input, never shrinks memory, and changes memory, each register, pc, I, the stack, the display and each timer only when it is one of the instructions that write them; the plain assignments (00E0, 1NNN, BNNN, 6XNN, 8XY0, ANNN, FX07, FX15, FX18) write the values the code assigns, and every other instruction gives the result of its helper applied to the decoded operands, so each helper's contract holds of the decoded instruction |
| Interpreter.Cycle | emulator/emulator.rb:35-38 | a cycle keeps the state well formed, and on an unknown opcode changes nothing but pc, which rises by 2 |
| Properties.FetchDecodes | emulator/emulator.rb:35-51 | fetching an instruction stored at pc decodes to that instruction |
| Properties.CallReturnCycles | emulator/emulator.rb:54-60 | a 2NNN cycle followed by the 00EE stored at NNN returns to the instruction after the call with the stack and everything else as before |
| Properties.JumpCycle | emulator/emulator.rb:56-113 | a 1NNN cycle sets pc to NNN and a BNNN cycle to NNN + V0 unwrapped (at most 0x10FE); nothing else changes |
| Properties.WaitKeyCycle | emulator/emulator.rb:139-145 | an FX0A cycle with no key held leaves the whole state unchanged; with key k it sets VX to k and moves on by 2 |
| Properties.SkipCycle | emulator/emulator.rb:61-138 | a skip cycle moves pc on by 4 when its condition holds and by 2 otherwise, and changes nothing else; EX9E and EXA1 compare VX with the held key, so with no key EXA1 always skips |
| Properties.StoreThenLoad | emulator/emulator.rb:162-169 | FX65 right after FX55 with the same X and I reloads exactly the values stored, so V0 to VX round-trip |
| Properties.LoadThenStore | emulator/emulator.rb:162-169 | FX55 right after FX65 with the same X and I writes back the bytes just loaded, leaving memory as it was |
| Properties.DrawTwice | emulator/emulator.rb:116-132 | drawing the same sprite at the same place twice (X and Y other than F) leaves the display as the first draw did and sets VF to 1 |

## Left out

- `run_emulator.rb` is not part of this model. It reads the program file and runs the wall-clock frame loop, which are I/O and timing policy.
- `emulator/display_ruby2d.rb` and `emulator/sound_ruby2d.rb` are thin wrappers over a window and audio library. Their one contact with the core is that `draw_buffer` calls `clear_dirty!`, which is modelled as `Display.ClearDirty`.
- The `puts` messages (unknown opcode, waiting for a key, the test-only setters) are output only and are not modelled.
- `running?` always returns true and is not modelled.
- The test-only setters `delay_timer=` and `index_register=` are plain assignments and are not modelled.
- `rand(0xFF)` in CXNN is a parameter `rnd` of `Execute` and `Cycle`, required to lie in 0 to 254 as `rand(0xFF)` does.
- Ruby's `nil` results (reads past the end of memory, an empty stack, writes that pad with `nil`) are preconditions, listed above, and not modelled behaviour.
- The key input is a key code 0 to 15 or none. The Ruby code never calls the setter, so other values are not modelled.

=== FILE: bits.dfy ===
/** Integer widths of the interpreter and the bitwise operators it applies to them.

    Ruby integers are unbounded; the interpreter masks them by hand. The bitwise
    operators `|`, `&`, `^` and the bit test `(v >> i) & 1` are defined here on
    natural numbers, one binary digit at a time, so that the register
    instructions can be stated bit by bit.
 */
module Bits {

  /** A value of one memory cell or one general register. */
  type Byte = b: int | 0 <= b < 0x100

  /** One hexadecimal digit of an opcode: a register number or a sprite height. */
  type Nibble = n: int | 0 <= n < 0x10

  /** A 12-bit address operand (the NNN field). */
  type Address = a: int | 0 <= a < 0x1000

  /** A 16-bit opcode. */
  type Word = w: int | 0 <= w < 0x1_0000

  function Pow2(n: nat): (r: nat)
    ensures r >= 1
  {
    if n == 0 then 1 else 2 * Pow2(n - 1)
  }

  lemma Pow2Eight()
    ensures Pow2(8) == 256
  {
  }

  /** Division by 16, 256 or 4096 has a unique quotient and remainder. */
  lemma DivMod(q: int, r: int, k: int)
    requires k == 0x10 || k == 0x100 || k == 0x1000
    requires 0 <= r < k
    ensures (q * k + r) / k == q && (q * k + r) % k == r
  {
  }

  /** Bit `i` of `v`, counting from the least significant bit: Ruby's `(v >> i) & 1`. */
  function Bit(v: nat, i: nat): (r: nat)
    ensures r <= 1
  {
    if i == 0 then v % 2 else Bit(v / 2, i - 1)
  }

  /** Bit 7 of a byte is the byte divided by 128: Ruby's `v >> 7` on a byte. */
  lemma TopBit(v: Byte)
    ensures Bit(v, 7) == v / 0x80
  {
    var a1 := v / 2;
    var a2 := a1 / 2;
    var a3 := a2 / 2;
    var a4 := a3 / 2;
    var a5 := a4 / 2;
    var a6 := a5 / 2;
    var a7 := a6 / 2;
    assert Bit(v, 7) == Bit(a1, 6) == Bit(a2, 5) == Bit(a3, 4) == Bit(a4, 3);
    assert Bit(a4, 3) == Bit(a5, 2) == Bit(a6, 1) == Bit(a7, 0) == a7 % 2;
    if v < 0x80 {
      assert a1 < 64 && a2 < 32 && a3 < 16 && a4 < 8 && a5 < 4 && a6 < 2 && a7 == 0;
    } else {
      assert a1 >= 64 && a2 >= 32 && a3 >= 16 && a4 >= 8 && a5 >= 4 && a6 >= 2 && a7 == 1;
    }
  }

  lemma {:induction false} BitOfZero(i: nat)
    ensures Bit(0, i) == 0
  {
    if i > 0 {
      BitOfZero(i - 1);
    }
  }

  // Ruby's `|`, `&` and `^` on non-negative integers.

  function Or(a: nat, b: nat): nat
    decreases a
  {
    if a == 0 then b
    else if b == 0 then a
    else 2 * Or(a / 2, b / 2) + (if a % 2 == 1 || b % 2 == 1 then 1 else 0)
  }

  function And(a: nat, b: nat): nat
    decreases a
  {
    if a == 0 || b == 0 then 0
    else 2 * And(a / 2, b / 2) + (if a % 2 == 1 && b % 2 == 1 then 1 else 0)
  }

  function Xor(a: nat, b: nat): nat
    decreases a
  {
    if a == 0 then b
    else if b == 0 then a
    else 2 * Xor(a / 2, b / 2) + (if a % 2 != b % 2 then 1 else 0)
  }

  lemma {:induction false} OrBit(a: nat, b: nat, i: nat)
    ensures Bit(Or(a, b), i) == if Bit(a, i) == 1 || Bit(b, i) == 1 then 1 else 0
    decreases a
  {
    if a == 0 {
      BitOfZero(i);
    } else if b == 0 {
      BitOfZero(i);
    } else if i > 0 {
      assert Or(a, b) / 2 == Or(a / 2, b / 2);
      OrBit(a / 2, b / 2, i - 1);
    }
  }

  lemma {:induction false} AndBit(a: nat, b: nat, i: nat)
    ensures Bit(And(a, b), i) == if Bit(a, i) == 1 && Bit(b, i) == 1 then 1 else 0
    decreases a
  {
    if a == 0 || b == 0 {
      BitOfZero(i);
    } else if i > 0 {
      assert And(a, b) / 2 == And(a / 2, b / 2);
      AndBit(a / 2, b / 2, i - 1);
    }
  }

  lemma {:induction false} XorBit(a: nat, b: nat, i: nat)
    ensures Bit(Xor(a, b), i) == if Bit(a, i) != Bit(b, i) then 1 else 0
    decreases a
  {
    if a == 0 {
      BitOfZero(i);
    } else if b == 0 {
      BitOfZero(i);
    } else if i > 0 {
      assert Xor(a, b) / 2 == Xor(a / 2, b / 2);
      XorBit(a / 2, b / 2, i - 1);
    }
  }

  lemma {:induction false} OrBelow(a: nat, b: nat, n: nat)
    requires a < Pow2(n) && b < Pow2(n)
    ensures Or(a, b) < Pow2(n)
    decreases a
  {
    if a != 0 && b != 0 {
      OrBelow(a / 2, b / 2, n - 1);
    }
  }

  lemma {:induction false} AndBelow(a: nat, b: nat, n: nat)
    requires a < Pow2(n)
    ensures And(a, b) < Pow2(n)
    decreases a
  {
    if a != 0 && b != 0 {
      AndBelow(a / 2, b / 2, n - 1);
    }
  }

  lemma {:induction false} XorBelow(a: nat, b: nat, n: nat)
    requires a < Pow2(n) && b < Pow2(n)
    ensures Xor(a, b) < Pow2(n)
    decreases a
  {
    if a != 0 && b != 0 {
      XorBelow(a / 2, b / 2, n - 1);
    }
  }

  /** `a | b` on two bytes: a byte whose set bits are those set in either operand. */
  function OrByte(a: Byte, b: Byte): (r: Byte)
    ensures forall i: nat :: Bit(r, i) == if Bit(a, i) == 1 || Bit(b, i) == 1 then 1 else 0
  {
    Pow2Eight();
    OrBelow(a, b, 8);
    assert forall i: nat :: Bit(Or(a, b), i) == if Bit(a, i) == 1 || Bit(b, i) == 1 then 1 else 0 by {
      forall i: nat {
        OrBit(a, b, i);
      }
    }
    Or(a, b)
  }

  /** `a & b` on two bytes: a byte whose set bits are those set in both operands. */
  function AndByte(a: Byte, b: Byte): (r: Byte)
    ensures forall i: nat :: Bit(r, i) == if Bit(a, i) == 1 && Bit(b, i) == 1 then 1 else 0
  {
    Pow2Eight();
    AndBelow(a, b, 8);
    assert forall i: nat :: Bit(And(a, b), i) == if Bit(a, i) == 1 && Bit(b, i) == 1 then 1 else 0 by {
      forall i: nat {
        AndBit(a, b, i);
      }
    }
    And(a, b)
  }

  /** `a ^ b` on two bytes: a byte whose set bits are those set in exactly one operand. */
  function XorByte(a: Byte, b: Byte): (r: Byte)
    ensures forall i: nat :: Bit(r, i) == if Bit(a, i) != Bit(b, i) then 1 else 0
  {
    Pow2Eight();
    XorBelow(a, b, 8);
    assert forall i: nat :: Bit(Xor(a, b), i) == if Bit(a, i) != Bit(b, i) then 1 else 0 by {
      forall i: nat {
        XorBit(a, b, i);
      }
    }
    Xor(a, b)
  }
}

=== FILE: display.dfy ===
/** The 64 x 32 framebuffer (`DisplayBuffer`): a flat array of cells, row after
    row, and a dirty flag that tells the renderer a redraw is due.

    A cell holds whatever integer was last written to it; the interpreter only
    ever writes 0 or 1. Writing a pixel OVERWRITES the cell (it does not XOR),
    and reports `true` only when the cell actually changed.
 */
module Display {

  const Width := 64
  const Height := 32
  const Size := 2048

  datatype Buffer = Buffer(cells: seq<int>, dirty: bool)

  predicate Valid(b: Buffer) {
    |b.cells| == Size
  }

  /** The coordinates `set_pixel` does not clip. */
  predicate InBounds(x: int, y: int) {
    0 <= x < Width && 0 <= y < Height
  }

  /** The cell holding pixel (x, y): rows are stored one after another. */
  function Index(x: int, y: int): (i: nat)
    requires InBounds(x, y)
    ensures i < Size
  {
    y * 64 + x
  }

  /** The column and the row are recovered from a cell number. */
  lemma IndexCoordinates(x: int, y: int)
    requires InBounds(x, y)
    ensures Index(x, y) % 64 == x && Index(x, y) / 64 == y
  {
  }

  /** Distinct pixels on screen live in distinct cells. */
  lemma IndexInjective(x1: int, y1: int, x2: int, y2: int)
    requires InBounds(x1, y1) && InBounds(x2, y2)
    requires Index(x1, y1) == Index(x2, y2)
    ensures x1 == x2 && y1 == y2
  {
    IndexCoordinates(x1, y1);
    IndexCoordinates(x2, y2);
  }

  /** Every cell holds 0 or 1. */
  predicate Binary(b: Buffer) {
    forall i :: 0 <= i < |b.cells| ==> b.cells[i] == 0 || b.cells[i] == 1
  }

  /** The buffer of a new interpreter: every pixel off, nothing to redraw. */
  function New(): (b: Buffer)
    ensures Valid(b) && Binary(b)
    ensures forall i :: 0 <= i < |b.cells| ==> b.cells[i] == 0
    ensures !b.dirty
  {
    Buffer(seq(Size, _ => 0), false)
  }

  /** `reset`: every cell becomes 0 and a redraw is due, whatever was there. */
  function Reset(b: Buffer): (r: Buffer)
    ensures |r.cells| == |b.cells|
    ensures forall i :: 0 <= i < |r.cells| ==> r.cells[i] == 0
    ensures r.dirty
  {
    Buffer(seq(|b.cells|, _ => 0), true)
  }

  /** True when `set_pixel(x, y, value)` would leave the buffer as it is: the
      pixel is clipped, or its cell already holds `value`. */
  predicate NoChange(b: Buffer, x: int, y: int, value: int)
    requires Valid(b)
  {
    !InBounds(x, y) || b.cells[Index(x, y)] == value
  }

  /** `set_pixel(x, y, value)`: clip, then overwrite the cell; the boolean is the
      method's return value, true exactly when the cell changed. */
  function SetPixel(b: Buffer, x: int, y: int, value: int): (r: (Buffer, bool))
    requires Valid(b)
    ensures Valid(r.0)
    ensures r.1 <==> !NoChange(b, x, y, value)
    ensures !r.1 ==> r.0 == b
    ensures InBounds(x, y) ==> r.0.cells[Index(x, y)] == value
    ensures forall i :: 0 <= i < Size && (!InBounds(x, y) || i != Index(x, y)) ==> r.0.cells[i] == b.cells[i]
    ensures r.0.dirty <==> b.dirty || r.1
  {
    if x > 63 || y > 31 || x < 0 || y < 0 then (b, false)
    else
      var old_value := b.cells[y * 64 + x];
      if old_value == value then (b, false)
      else (Buffer(b.cells[y * 64 + x := value], true), true)
  }

  /** `clear_dirty!`, called by the renderer after it has drawn the buffer. */
  function ClearDirty(b: Buffer): (r: Buffer)
    ensures r.cells == b.cells
    ensures !r.dirty
  {
    b.(dirty := false)
  }

  /** Writing the same value to the same pixel twice changes nothing the second
      time, and the second call returns false. */
  lemma SetPixelIdempotent(b: Buffer, x: int, y: int, value: int)
    requires Valid(b)
    ensures var (b1, _) := SetPixel(b, x, y, value);
      SetPixel(b1, x, y, value) == (b1, false)
  {
  }

  /** Writing 0 or 1 into a buffer of 0s and 1s leaves a buffer of 0s and 1s. */
  lemma SetPixelKeepsBinary(b: Buffer, x: int, y: int, value: int)
    requires Valid(b) && Binary(b)
    requires value == 0 || value == 1
    ensures Binary(SetPixel(b, x, y, value).0)
  {
  }
}

=== FILE: interpreter.dfy ===
/** `execute_opcode` and `cycle`: what each instruction does to the state.

    Each instruction family with arithmetic in it has its own function whose
    contract states what the result means (a carry, a borrow, the bits of a
    bitwise operator, the decimal digits of a byte); `Execute` dispatches on
    the decoded instruction and states which parts of the state each
    instruction may touch. The program counter has already moved past the
    instruction when it executes.

    Masking with `& 0xFF` and `& 0xFFFF` is written as `% 256` and `% 65536`:
    for the non-negative and negative operands that reach them the two agree
    (Dafny's `%` is Euclidean, like Ruby's `&` on two's complement integers).
 */
module Interpreter {
  import opened Bits
  import Display
  import Sprite
  import opened Machine
  import Opcodes

  // Subroutines

  /** 00EE: the most recent return address comes off the stack and into the
      program counter. */
  function ReturnFromSubroutine(m: State): (r: State)
    requires m.stack != []
    ensures r.stack + [r.pc] == m.stack
    ensures r == m.(pc := r.pc, stack := r.stack)
  {
    m.(pc := m.stack[|m.stack| - 1], stack := m.stack[..|m.stack| - 1])
  }

  /** 2NNN: the address of the next instruction goes on the stack and control
      moves to NNN. */
  function CallSubroutine(m: State, nnn: Address): (r: State)
    ensures |r.stack| == |m.stack| + 1 && r.stack[|m.stack|] == m.pc
    ensures r.stack[..|m.stack|] == m.stack
    ensures r == m.(pc := nnn, stack := r.stack)
  {
    m.(pc := nnn, stack := m.stack + [m.pc])
  }

  /** A return undoes the call before it. */
  lemma CallThenReturn(m: State, nnn: Address)
    ensures ReturnFromSubroutine(CallSubroutine(m, nnn)) == m
  {
    var c := CallSubroutine(m, nnn);
    assert c.stack[..|c.stack| - 1] == m.stack;
  }

  // Register arithmetic

  /** Register `x` set to `v`, then VF set to `flag`: when X is F the flag is
      written last and wins. */
  function WriteWithFlag(regs: seq<Byte>, x: Nibble, v: Byte, flag: Byte): (r: seq<Byte>)
    requires |regs| == 16
    ensures |r| == 16 && r[15] == flag
    ensures x != 15 ==> r[x] == v
    ensures forall j :: 0 <= j < 15 && j != x ==> r[j] == regs[j]
  {
    regs[x := v][15 := flag]
  }

  /** 7XNN. `execute_opcode` adds the whole opcode and masks afterwards, since `&`
      binds more loosely than `+`; the high byte of the opcode is a multiple of
      256 and drops out, so VX gets VX + NN wrapped to a byte. No carry flag. */
  function AddImmediate(regs: seq<Byte>, x: Nibble, nn: Byte): (r: seq<Byte>)
    requires |regs| == 16
    ensures |r| == 16
    ensures r[x] as int == if regs[x] as int + nn < 256 then regs[x] as int + nn else regs[x] as int + nn - 256
    ensures forall j :: 0 <= j < 16 && j != x ==> r[j] == regs[j]
  {
    var opcode := 0x7000 + 0x100 * x + nn;
    var sum := regs[x] as int + nn;
    var carry := if sum < 256 then 0 else 1;
    assert regs[x] as int + opcode == (0x70 + x + carry) * 0x100 + (sum - 256 * carry);
    DivMod(0x70 + x + carry, sum - 256 * carry, 0x100);
    regs[x := (regs[x] as int + opcode) % 0x100]
  }

  /** 8XY4: the unwrapped sum is the wrapped sum plus 256 times the carry
      left in VF. */
  function AddRegisters(regs: seq<Byte>, x: Nibble, y: Nibble): (r: seq<Byte>)
    requires |regs| == 16
    ensures |r| == 16
    ensures r[15] <= 1
    ensures r[15] == 1 <==> regs[x] as int + regs[y] as int > 255
    ensures x != 15 ==> r[x] as int + 256 * r[15] as int == regs[x] as int + regs[y] as int
    ensures forall j :: 0 <= j < 15 && j != x ==> r[j] == regs[j]
  {
    var sum := regs[x] as int + regs[y] as int;
    WriteWithFlag(regs, x, sum % 0x100, if sum > 0xFF then 1 else 0)
  }

  /** 8XY5 and 8XY7: VX gets the difference wrapped to a byte and VF the
      "no borrow" bit, so the difference is VX minus 256 unless VF is set. */
  function Subtract(regs: seq<Byte>, x: Nibble, minuend: Byte, subtrahend: Byte): (r: seq<Byte>)
    requires |regs| == 16
    ensures |r| == 16
    ensures r[15] <= 1
    ensures r[15] == 1 <==> minuend >= subtrahend
    ensures x != 15 ==> r[x] as int - 256 * (1 - r[15] as int) == minuend as int - subtrahend as int
    ensures forall j :: 0 <= j < 15 && j != x ==> r[j] == regs[j]
  {
    WriteWithFlag(regs, x, (minuend as int - subtrahend as int) % 0x100, if minuend >= subtrahend then 1 else 0)
  }

  /** 8XY6, in place on VX (Y is ignored): VF gets the bit shifted out. */
  function ShiftRightInPlace(regs: seq<Byte>, x: Nibble): (r: seq<Byte>)
    requires |regs| == 16
    ensures |r| == 16
    ensures r[15] == Bit(regs[x], 0)
    ensures x != 15 ==> 2 * r[x] as int + r[15] as int == regs[x] as int
    ensures forall j :: 0 <= j < 15 && j != x ==> r[j] == regs[j]
  {
    var value := regs[x];
    WriteWithFlag(regs, x, value / 2, value % 2)
  }

  /** 8XYE, in place on VX (Y is ignored): VF gets the bit shifted out. */
  function ShiftLeftInPlace(regs: seq<Byte>, x: Nibble): (r: seq<Byte>)
    requires |regs| == 16
    ensures |r| == 16
    ensures r[15] == Bit(regs[x], 7)
    ensures x != 15 ==> r[x] as int + 256 * r[15] as int == 2 * regs[x] as int
    ensures forall j :: 0 <= j < 15 && j != x ==> r[j] == regs[j]
  {
    var value := regs[x];
    TopBit(value);
    WriteWithFlag(regs, x, (value as int * 2) % 0x100, value / 0x80)
  }

  /** 8XY1: bit i of VX is set when it is set in VX or VY. VF is not touched. */
  function OrInto(regs: seq<Byte>, x: Nibble, y: Nibble): (r: seq<Byte>)
    requires |regs| == 16
    ensures |r| == 16
    ensures forall i: nat :: Bit(r[x], i) == if Bit(regs[x], i) == 1 || Bit(regs[y], i) == 1 then 1 else 0
    ensures forall j :: 0 <= j < 16 && j != x ==> r[j] == regs[j]
  {
    regs[x := OrByte(regs[x], regs[y])]
  }

  /** 8XY2: bit i of VX is set when it is set in both VX and VY. VF is not touched. */
  function AndInto(regs: seq<Byte>, x: Nibble, y: Nibble): (r: seq<Byte>)
    requires |regs| == 16
    ensures |r| == 16
    ensures forall i: nat :: Bit(r[x], i) == if Bit(regs[x], i) == 1 && Bit(regs[y], i) == 1 then 1 else 0
    ensures forall j :: 0 <= j < 16 && j != x ==> r[j] == regs[j]
  {
    regs[x := AndByte(regs[x], regs[y])]
  }

  /** 8XY3: bit i of VX is set when it is set in exactly one of VX and VY. VF
      is not touched. */
  function XorInto(regs: seq<Byte>, x: Nibble, y: Nibble): (r: seq<Byte>)
    requires |regs| == 16
    ensures |r| == 16
    ensures forall i: nat :: Bit(r[x], i) == if Bit(regs[x], i) != Bit(regs[y], i) then 1 else 0
    ensures forall j :: 0 <= j < 16 && j != x ==> r[j] == regs[j]
  {
    regs[x := XorByte(regs[x], regs[y])]
  }

  /** CXNN with `rnd` the value of `rand(0xFF)`, which lies in 0 .. 254: VX
      keeps the bits of `rnd` that NN lets through, and no others. */
  function RandomMasked(regs: seq<Byte>, x: Nibble, nn: Byte, rnd: Byte): (r: seq<Byte>)
    requires |regs| == 16
    requires rnd < 0xFF
    ensures |r| == 16
    ensures forall i: nat :: Bit(r[x], i) == 1 <==> Bit(rnd, i) == 1 && Bit(nn, i) == 1
    ensures forall j :: 0 <= j < 16 && j != x ==> r[j] == regs[j]
  {
    regs[x := AndByte(rnd, nn)]
  }

  // Drawing

  /** The sprite rows DXYN reads: N bytes from I on. */
  function SpriteRows(m: State, n: Nibble): (rows: seq<Byte>)
    requires n == 0 || m.index + n <= |m.memory|
    ensures |rows| == n
    ensures forall k :: 0 <= k < n ==> rows[k] == m.memory[m.index + k]
  {
    if n == 0 then [] else m.memory[m.index .. m.index + n]
  }

  /** Where DXYN anchors the sprite: VX mod 64, VY mod 32. */
  function Anchor(m: State, x: Nibble, y: Nibble): (p: (int, int))
    requires Valid(m)
    ensures Display.InBounds(p.0, p.1)
  {
    (m.registers[x] % 64, m.registers[y] % 32)
  }

  /** The state after drawing `rows` anchored at (`px`, `py`): VF is cleared
      and then set when any `set_pixel` call returns false. */
  function DrawAt(m: State, px: int, py: int, rows: seq<Byte>): (r: State)
    requires Valid(m)
    ensures Valid(r)
    ensures r == m.(registers := r.registers, display := r.display)
    ensures forall j :: 0 <= j < 15 ==> r.registers[j] == m.registers[j]
    ensures r.registers[15] == 0 || r.registers[15] == 1
    ensures r.registers[15] == 1 <==>
      exists row, col :: 0 <= row < |rows| && 0 <= col < 8 && Sprite.Misses(m.display, Sprite.PixelWrite(px, py, rows, row, col))
    ensures r.display.dirty <==> (m.display.dirty ||
      exists row, col :: 0 <= row < |rows| && 0 <= col < 8 && !Sprite.Misses(m.display, Sprite.PixelWrite(px, py, rows, row, col)))
    ensures forall row, col :: 0 <= row < |rows| && 0 <= col < 8 && Display.InBounds(px + col, py + row) ==>
      r.display.cells[Display.Index(px + col, py + row)] == Sprite.PixelWrite(px, py, rows, row, col).value
    ensures forall i :: 0 <= i < Display.Size && !Sprite.Covers(px, py, |rows|, i) ==>
      r.display.cells[i] == m.display.cells[i]
  {
    var drawn := Sprite.Draw(m.display, px, py, rows);
    m.(registers := m.registers[15 := if drawn.1 then 1 else 0], display := drawn.0)
  }

  /** DXYN. VF is cleared and then set when any `set_pixel` call returns false;
      because `set_pixel` overwrites, that is when some pixel of the sprite is
      clipped or already holds its bit. Each pixel on screen takes its bit,
      every cell outside the sprite's rectangle keeps its value, and the
      buffer turns dirty exactly when some pixel changes. */
  function DrawSprite(m: State, x: Nibble, y: Nibble, n: Nibble): (r: State)
    requires Valid(m)
    requires n == 0 || m.index + n <= |m.memory|
    ensures Valid(r)
    ensures r == m.(registers := r.registers, display := r.display)
    ensures forall j :: 0 <= j < 15 ==> r.registers[j] == m.registers[j]
    ensures r.registers[15] == 0 || r.registers[15] == 1
    ensures r.registers[15] == 1 <==>
      exists row, col :: 0 <= row < n && 0 <= col < 8 &&
        Sprite.Misses(m.display, Sprite.PixelWrite(Anchor(m, x, y).0, Anchor(m, x, y).1, SpriteRows(m, n), row, col))
    ensures r.display.dirty <==> (m.display.dirty ||
      exists row, col :: 0 <= row < n && 0 <= col < 8 &&
        !Sprite.Misses(m.display, Sprite.PixelWrite(Anchor(m, x, y).0, Anchor(m, x, y).1, SpriteRows(m, n), row, col)))
    ensures forall row, col :: 0 <= row < n && 0 <= col < 8 && Display.InBounds(Anchor(m, x, y).0 + col, Anchor(m, x, y).1 + row) ==>
      r.display.cells[Display.Index(Anchor(m, x, y).0 + col, Anchor(m, x, y).1 + row)]
        == Sprite.PixelWrite(Anchor(m, x, y).0, Anchor(m, x, y).1, SpriteRows(m, n), row, col).value
    ensures forall i :: 0 <= i < Display.Size && !Sprite.Covers(Anchor(m, x, y).0, Anchor(m, x, y).1, n, i) ==>
      r.display.cells[i] == m.display.cells[i]
  {
    DrawAt(m, Anchor(m, x, y).0, Anchor(m, x, y).1, SpriteRows(m, n))
  }

  // Keypad, index register and memory

  /** FX0A: with a key held, VX gets its code; with none, the program counter
      steps back onto this instruction so that the next cycle runs it again. */
  function WaitForKey(m: State, x: Nibble): (r: State)
    requires Valid(m)
    requires m.pressedKey.Some? || m.pc >= 2
    ensures m.pressedKey.Some? ==> r == m.(registers := m.registers[x := m.pressedKey.value])
    ensures m.pressedKey.None? ==> r.pc + 2 == m.pc && r == m.(pc := r.pc)
  {
    if m.pressedKey.Some? then m.(registers := m.registers[x := m.pressedKey.value])
    else m.(pc := m.pc - 2)
  }

  /** FX1E: I plus VX, wrapped to 16 bits. */
  function AddToIndex(m: State, x: Nibble): (r: State)
    requires Valid(m)
    ensures r.index < 0x1_0000
    ensures r.index == m.index + m.registers[x] || r.index == m.index + m.registers[x] - 0x1_0000
    ensures r == m.(index := r.index)
  {
    m.(index := (m.index + m.registers[x]) % 0x1_0000)
  }

  /** FX29, which uses the digit X itself rather than the value of VX: I
      points at the glyph of hexadecimal digit X, provided the glyph table is
      still where the constructor put it. */
  function PointToGlyph(m: State, x: Nibble): (r: State)
    requires Valid(m)
    ensures r == m.(index := r.index)
    ensures r.index == FontOffset + 5 * x &&
      (m.memory[FontOffset .. FontOffset + |Fonts|] == Fonts ==>
         m.memory[r.index .. r.index + 5] == Fonts[5 * x .. 5 * x + 5])
  {
    var r := m.(index := FontOffset + x * 5);
    assert m.memory[FontOffset .. FontOffset + |Fonts|] == Fonts ==>
      m.memory[r.index .. r.index + 5] == m.memory[FontOffset .. FontOffset + |Fonts|][5 * x .. 5 * x + 5];
    r
  }

  /** FX33: the hundreds, tens and units of VX, at I, I + 1 and I + 2. */
  function StoreBcd(m: State, x: Nibble): (r: State)
    requires Valid(m)
    requires m.index <= |m.memory|
    ensures Valid(r) && r == m.(memory := r.memory)
    ensures |r.memory| == if m.index + 3 <= |m.memory| then |m.memory| else m.index + 3
    ensures r.memory[m.index] <= 2 && r.memory[m.index + 1] <= 9 && r.memory[m.index + 2] <= 9
    ensures 100 * r.memory[m.index] as int + 10 * r.memory[m.index + 1] as int + r.memory[m.index + 2] as int == m.registers[x] as int
    ensures forall a :: 0 <= a < |m.memory| && !(m.index <= a < m.index + 3) ==> r.memory[a] == m.memory[a]
  {
    var value := m.registers[x];
    m.(memory := Overwrite(m.memory, m.index, [value / 100, (value / 10) % 10, value % 10]))
  }

  /** FX55: V0 .. VX copied to I .. I + X; I itself does not move. */
  function StoreRegisters(m: State, x: Nibble): (r: State)
    requires Valid(m)
    requires m.index <= |m.memory|
    ensures Valid(r) && r == m.(memory := r.memory)
    ensures |r.memory| == if m.index + x + 1 <= |m.memory| then |m.memory| else m.index + x + 1
    ensures forall k :: 0 <= k <= x ==> r.memory[m.index + k] == m.registers[k]
    ensures forall a :: 0 <= a < |m.memory| && !(m.index <= a <= m.index + x) ==> r.memory[a] == m.memory[a]
  {
    m.(memory := Overwrite(m.memory, m.index, m.registers[..x + 1]))
  }

  /** FX65: V0 .. VX loaded from I .. I + X; I itself does not move. */
  function LoadRegisters(m: State, x: Nibble): (r: State)
    requires Valid(m)
    requires m.index + x < |m.memory|
    ensures Valid(r) && r == m.(registers := r.registers)
    ensures forall k :: 0 <= k <= x ==> r.registers[k] == m.memory[m.index + k]
    ensures forall k :: x < k < 16 ==> r.registers[k] == m.registers[k]
  {
    m.(registers := m.memory[m.index .. m.index + x + 1] + m.registers[x + 1..])
  }

  // Dispatch

  /** Whether the instruction can run in state `m` without the Ruby code reading
      nil: a return needs a non-empty stack; a draw, FX33, FX55 and FX65 need
      the memory cells they read, or the cell they first append at; FX0A with
      no key held steps the program counter back and needs it to be at least 2
      (which it always is after a fetch). */
  predicate Defined(m: State, i: Opcodes.Instr) {
    match i
    case Return => m.stack != []
    case Draw(_, _, n) => n == 0 || m.index + n <= |m.memory|
    case StoreBcd(_) => m.index <= |m.memory|
    case StoreRegs(_) => m.index <= |m.memory|
    case LoadRegs(x) => m.index + x < |m.memory|
    case WaitKey(_) => m.pressedKey.Some? || m.pc >= 2
    case _ => true
  }

  /** The general registers instruction `i` may write. */
  predicate WritesRegister(i: Opcodes.Instr, j: int) {
    match i
    case LoadImm(x, _) => j == x
    case AddImm(x, _) => j == x
    case Move(x, _) => j == x
    case OrReg(x, _) => j == x
    case AndReg(x, _) => j == x
    case XorReg(x, _) => j == x
    case AddReg(x, _) => j == x || j == 15
    case SubReg(x, _) => j == x || j == 15
    case SubRevReg(x, _) => j == x || j == 15
    case ShiftRight(x) => j == x || j == 15
    case ShiftLeft(x) => j == x || j == 15
    case Random(x, _) => j == x
    case Draw(_, _, _) => j == 15
    case GetDelay(x) => j == x
    case WaitKey(x) => j == x
    case LoadRegs(x) => j <= x
    case _ => false
  }

  /** The instructions that may set the program counter. */
  predicate MovesCounter(i: Opcodes.Instr) {
    i.Return? || i.Jump? || i.Call? || i.JumpOffset? || i.WaitKey? || IsSkip(i)
  }

  /** The instructions that may set the index register. */
  predicate WritesIndex(i: Opcodes.Instr) {
    i.SetIndex? || i.AddIndex? || i.FontChar?
  }

  /** The conditional skips: 3XNN, 4XNN, 5XY0, 9XY0, EX9E and EXA1. */
  predicate IsSkip(i: Opcodes.Instr) {
    i.SkipEqImm? || i.SkipNeImm? || i.SkipEqReg? || i.SkipNeReg? || i.SkipKey? || i.SkipNotKey?
  }

  /** Whether a skip instruction skips in state `m`. A key test compares VX
      with the held key, so with no key held EX9E never skips and EXA1 always
      does. */
  predicate SkipTaken(m: State, i: Opcodes.Instr)
    requires Valid(m)
  {
    match i
    case SkipEqImm(x, nn) => m.registers[x] == nn
    case SkipNeImm(x, nn) => m.registers[x] != nn
    case SkipEqReg(x, y) => m.registers[x] == m.registers[y]
    case SkipNeReg(x, y) => m.registers[x] != m.registers[y]
    case SkipKey(x) => m.pressedKey.Some? && m.pressedKey.value == m.registers[x]
    case SkipNotKey(x) => !(m.pressedKey.Some? && m.pressedKey.value == m.registers[x])
    case _ => false
  }

  /** Instruction `i` took state `m` to `r` touching only what it has business
      with: the state stays well formed, the key input and the memory length
      are kept (the memory may only grow), and each part of the state changes
      only under the instructions that write it. An unknown opcode changes
      nothing, and a skip either advances the program counter by two or
      leaves the state as it was. */
  predicate Confined(m: State, i: Opcodes.Instr, r: State)
    requires Valid(m)
  {
    && Valid(r)
    && r.pressedKey == m.pressedKey
    && |r.memory| >= |m.memory|
    && (!(i.StoreBcd? || i.StoreRegs?) ==> r.memory == m.memory)
    && (forall j :: 0 <= j < 16 && !WritesRegister(i, j) ==> r.registers[j] == m.registers[j])
    && (!MovesCounter(i) ==> r.pc == m.pc)
    && (!WritesIndex(i) ==> r.index == m.index)
    && (!(i.Call? || i.Return?) ==> r.stack == m.stack)
    && (!(i.ClearScreen? || i.Draw?) ==> r.display == m.display)
    && (!i.SetDelay? ==> r.delayTimer == m.delayTimer)
    && (!i.SetSound? ==> r.soundTimer == m.soundTimer)
    && (i.Unknown? ==> r == m)
    && (IsSkip(i) ==> r == if SkipTaken(m, i) then m.(pc := m.pc + 2) else m)
  }

  /** What each instruction of `execute_opcode` writes. The plain
      assignments are stated by value: 00E0 blanks the screen and marks it
      dirty, 1NNN and BNNN set the program counter, 6XNN and 8XY0 set VX, ANNN
      sets I, FX07 copies the delay timer into VX, and FX15 and FX18 copy VX
      into a timer. Every other instruction is tied to the helper that
      computes it and to the operands the decoded opcode gives that helper,
      so the helper's contract applies to it (CXNN, which also needs the
      random value, is stated where that value is in scope). */
  predicate Assigns(m: State, i: Opcodes.Instr, r: State)
    requires Valid(m) && Valid(r) && Defined(m, i)
  {
    match i
    case ClearScreen =>
      r.display.dirty && forall k :: 0 <= k < |r.display.cells| ==> r.display.cells[k] == 0
    case Return => r == ReturnFromSubroutine(m)
    case Jump(nnn) => r.pc == nnn
    case Call(nnn) => r == CallSubroutine(m, nnn)
    case JumpOffset(nnn) => r.pc == nnn + m.registers[0]
    case LoadImm(x, nn) => r.registers[x] == nn
    case AddImm(x, nn) => r.registers == AddImmediate(m.registers, x, nn)
    case Move(x, y) => r.registers[x] == m.registers[y]
    case OrReg(x, y) => r.registers == OrInto(m.registers, x, y)
    case AndReg(x, y) => r.registers == AndInto(m.registers, x, y)
    case XorReg(x, y) => r.registers == XorInto(m.registers, x, y)
    case AddReg(x, y) => r.registers == AddRegisters(m.registers, x, y)
    case SubReg(x, y) => r.registers == Subtract(m.registers, x, m.registers[x], m.registers[y])
    case ShiftRight(x) => r.registers == ShiftRightInPlace(m.registers, x)
    case SubRevReg(x, y) => r.registers == Subtract(m.registers, x, m.registers[y], m.registers[x])
    case ShiftLeft(x) => r.registers == ShiftLeftInPlace(m.registers, x)
    case SetIndex(nnn) => r.index == nnn
    case Draw(x, y, n) => r == DrawSprite(m, x, y, n)
    case GetDelay(x) => r.registers[x] == m.delayTimer
    case WaitKey(x) => r == WaitForKey(m, x)
    case SetDelay(x) => r.delayTimer == m.registers[x]
    case SetSound(x) => r.soundTimer == m.registers[x]
    case AddIndex(x) => r == AddToIndex(m, x)
    case FontChar(x) => r == PointToGlyph(m, x)
    case StoreBcd(x) => r == StoreBcd(m, x)
    case StoreRegs(x) => r == StoreRegisters(m, x)
    case LoadRegs(x) => r == LoadRegisters(m, x)
    case _ => true
  }

  /** The instructions that only steer control or clear the screen. */
  predicate IsControl(i: Opcodes.Instr) {
    i.ClearScreen? || i.Return? || i.Jump? || i.Call? || i.JumpOffset? || IsSkip(i)
  }

  /** The instructions that compute VX alone. */
  predicate IsRegisterWrite(i: Opcodes.Instr) {
    i.LoadImm? || i.AddImm? || i.Move? || i.OrReg? || i.AndReg? || i.XorReg? || i.Random?
  }

  /** The instructions that compute VX and a flag in VF. */
  predicate IsFlagged(i: Opcodes.Instr) {
    i.AddReg? || i.SubReg? || i.SubRevReg? || i.ShiftRight? || i.ShiftLeft?
  }

  /** 00E0: every pixel goes dark and the screen is marked for redrawing. */
  function Blank(m: State): (r: State)
    requires Valid(m)
    ensures Confined(m, Opcodes.ClearScreen, r)
    ensures Assigns(m, Opcodes.ClearScreen, r)
  {
    m.(display := Display.Reset(m.display))
  }

  /** 3XNN, 4XNN, 5XY0, 9XY0, EX9E and EXA1. */
  function ExecuteSkip(m: State, i: Opcodes.Instr): (r: State)
    requires Valid(m) && IsSkip(i)
    ensures Confined(m, i, r)
    ensures Assigns(m, i, r)
  {
    if SkipTaken(m, i) then m.(pc := m.pc + 2) else m
  }

  /** 00E0, 00EE, 1NNN, 2NNN, BNNN and the skips. */
  function ExecuteControl(m: State, i: Opcodes.Instr): (r: State)
    requires Valid(m) && Defined(m, i) && IsControl(i)
    ensures Confined(m, i, r)
    ensures Assigns(m, i, r)
  {
    match i
    case ClearScreen => Blank(m)
    case Return => ReturnFromSubroutine(m)
    case Jump(nnn) => m.(pc := nnn)
    case Call(nnn) => CallSubroutine(m, nnn)
    case JumpOffset(nnn) => m.(pc := nnn + m.registers[0])
    case _ => ExecuteSkip(m, i)
  }

  /** The state with the registers replaced by `regs`, for an instruction
      that writes only registers: when `regs` differs from the old registers
      only where `i` may write, nothing outside its business changes. */
  function WithRegisters(m: State, i: Opcodes.Instr, regs: seq<Byte>): (r: State)
    requires Valid(m) && (IsRegisterWrite(i) || IsFlagged(i))
    requires |regs| == 16
    requires forall j :: 0 <= j < 16 && !WritesRegister(i, j) ==> regs[j] == m.registers[j]
    ensures r == m.(registers := regs)
    ensures Confined(m, i, r)
  {
    m.(registers := regs)
  }

  /** 6XNN, 7XNN, 8XY0 to 8XY3 and CXNN. */
  function ExecuteRegisterWrite(m: State, i: Opcodes.Instr, rnd: Byte): (r: State)
    requires Valid(m) && IsRegisterWrite(i)
    requires rnd < 0xFF
    ensures Confined(m, i, r)
    ensures Assigns(m, i, r)
    ensures i.Random? ==> r.registers == RandomMasked(m.registers, i.x, i.nn, rnd)
  {
    match i
    case LoadImm(x, nn) => WithRegisters(m, i, m.registers[x := nn])
    case AddImm(x, nn) => WithRegisters(m, i, AddImmediate(m.registers, x, nn))
    case Move(x, y) => WithRegisters(m, i, m.registers[x := m.registers[y]])
    case OrReg(x, y) => WithRegisters(m, i, OrInto(m.registers, x, y))
    case AndReg(x, y) => WithRegisters(m, i, AndInto(m.registers, x, y))
    case XorReg(x, y) => WithRegisters(m, i, XorInto(m.registers, x, y))
    case Random(x, nn) => WithRegisters(m, i, RandomMasked(m.registers, x, nn, rnd))
  }

  /** 8XY4 to 8XYE. */
  function ExecuteFlagged(m: State, i: Opcodes.Instr): (r: State)
    requires Valid(m) && IsFlagged(i)
    ensures Confined(m, i, r)
    ensures Assigns(m, i, r)
  {
    match i
    case AddReg(x, y) => WithRegisters(m, i, AddRegisters(m.registers, x, y))
    case SubReg(x, y) => WithRegisters(m, i, Subtract(m.registers, x, m.registers[x], m.registers[y]))
    case SubRevReg(x, y) => WithRegisters(m, i, Subtract(m.registers, x, m.registers[y], m.registers[x]))
    case ShiftRight(x) => WithRegisters(m, i, ShiftRightInPlace(m.registers, x))
    case ShiftLeft(x) => WithRegisters(m, i, ShiftLeftInPlace(m.registers, x))
  }

  /** ANNN, DXYN, the FX__ group and unknown opcodes. */
  function ExecuteOther(m: State, i: Opcodes.Instr): (r: State)
    requires Valid(m) && Defined(m, i) && !IsControl(i) && !IsRegisterWrite(i) && !IsFlagged(i)
    ensures Confined(m, i, r)
    ensures Assigns(m, i, r)
  {
    match i
    case SetIndex(nnn) => m.(index := nnn)
    case Draw(x, y, n) => DrawSprite(m, x, y, n)
    case GetDelay(x) => m.(registers := m.registers[x := m.delayTimer])
    case WaitKey(x) => WaitForKey(m, x)
    case SetDelay(x) => m.(delayTimer := m.registers[x])
    case SetSound(x) => m.(soundTimer := m.registers[x])
    case AddIndex(x) => AddToIndex(m, x)
    case FontChar(x) => PointToGlyph(m, x)
    case StoreBcd(x) => StoreBcd(m, x)
    case StoreRegs(x) => StoreRegisters(m, x)
    case LoadRegs(x) => LoadRegisters(m, x)
    case Unknown(_) => m
  }

  /** `execute_opcode` on a decoded instruction; `rnd` stands for the value
      `rand(0xFF)` would return. */
  function Execute(m: State, i: Opcodes.Instr, rnd: Byte): (r: State)
    requires Valid(m) && Defined(m, i)
    requires rnd < 0xFF
    ensures Confined(m, i, r)
    ensures Assigns(m, i, r)
    ensures i.Random? ==> r.registers == RandomMasked(m.registers, i.x, i.nn, rnd)
  {
    if IsControl(i) then ExecuteControl(m, i)
    else if IsRegisterWrite(i) then ExecuteRegisterWrite(m, i, rnd)
    else if IsFlagged(i) then ExecuteFlagged(m, i)
    else ExecuteOther(m, i)
  }

  /** Whether `cycle` can run: the program counter and the cell after it hold
      bytes, and the instruction found there is defined in the state after
      the fetch. */
  predicate CanCycle(m: State) {
    && Valid(m)
    && m.pc + 1 < |m.memory|
    && Defined(Fetch(m).1, Opcodes.Decode(Fetch(m).0))
  }

  /** `cycle`: fetch, decode and execute one instruction. */
  function Cycle(m: State, rnd: Byte): (r: State)
    requires CanCycle(m)
    requires rnd < 0xFF
    ensures Valid(r)
    ensures r.pressedKey == m.pressedKey
    ensures Opcodes.Decode(Fetch(m).0).Unknown? ==> r == m.(pc := m.pc + 2)
  {
    var (opcode, next) := Fetch(m);
    Execute(next, Opcodes.Decode(opcode), rnd)
  }
}

=== FILE: machine.dfy ===
/** The interpreter's state (class `Emulator`) and the operations outside the
    opcode dispatcher: construction, `load_data`, `fetch_opcode`, the two timer
    ticks and the keypad setter.

    Memory is a Ruby array: reading past its end yields nil and writing one
    past its end appends. The model keeps that array as a sequence at least
    4096 cells long; operations that would read nil require the address to be
    in range instead.
 */
module Machine {
  import opened Bits
  import Display

  const MemorySize := 4096
  const FontOffset := 0x50
  const ProgramStart := 0x200

  /** The sixteen 5-byte glyphs of the hexadecimal digits 0 to F. */
  const Fonts: seq<Byte> := [
    0xF0, 0x90, 0x90, 0x90, 0xF0, // 0
    0x20, 0x60, 0x20, 0x20, 0x70, // 1
    0xF0, 0x10, 0xF0, 0x80, 0xF0, // 2
    0xF0, 0x10, 0xF0, 0x10, 0xF0, // 3
    0x90, 0x90, 0xF0, 0x10, 0x10, // 4
    0xF0, 0x80, 0xF0, 0x10, 0xF0, // 5
    0xF0, 0x80, 0xF0, 0x90, 0xF0, // 6
    0xF0, 0x10, 0x20, 0x40, 0x40, // 7
    0xF0, 0x90, 0xF0, 0x90, 0xF0, // 8
    0xF0, 0x90, 0xF0, 0x10, 0xF0, // 9
    0xF0, 0x90, 0xF0, 0x90, 0x90, // A
    0xE0, 0x90, 0xE0, 0x90, 0xE0, // B
    0xF0, 0x80, 0x80, 0x80, 0xF0, // C
    0xE0, 0x90, 0x90, 0x90, 0xE0, // D
    0xF0, 0x80, 0xF0, 0x80, 0xF0, // E
    0xF0, 0x80, 0xF0, 0x80, 0x80  // F
  ]

  /** A key code of the hexadecimal keypad. */
  type Key = k: int | 0 <= k < 16

  datatype Option<T> = None | Some(value: T)

  datatype State = State(
    memory: seq<Byte>,
    registers: seq<Byte>,         // V0 .. VF
    index: nat,                   // I
    pc: nat,
    stack: seq<nat>,              // return addresses, most recent last
    delayTimer: Byte,
    soundTimer: Byte,
    pressedKey: Option<Key>,      // at most one key, or nil
    display: Display.Buffer)

  /** What holds between any two calls on the interpreter: the memory array
      has at least its initial 4096 cells, there are sixteen registers, the
      index register fits in 16 bits and the framebuffer has 2048 cells. */
  predicate Valid(m: State) {
    && |m.memory| >= MemorySize
    && |m.registers| == 16
    && m.index < 0x1_0000
    && Display.Valid(m.display)
  }

  /** `bytes` written at `at`, `at + 1`, ... of a Ruby array, in order: cells
      that exist are overwritten, and a write one past the end appends. */
  function Overwrite(mem: seq<Byte>, at: nat, bytes: seq<Byte>): (r: seq<Byte>)
    requires at <= |mem|
    ensures |r| == if at + |bytes| <= |mem| then |mem| else at + |bytes|
    ensures forall k :: 0 <= k < |bytes| ==> r[at + k] == bytes[k]
    ensures forall a :: 0 <= a < |mem| && !(at <= a < at + |bytes|) ==> r[a] == mem[a]
  {
    if at + |bytes| <= |mem| then mem[..at] + bytes + mem[at + |bytes|..]
    else mem[..at] + bytes
  }

  /** `initial_memory`: 4096 zero bytes with the glyphs copied in at 0x50. */
  function InitialMemory(): (mem: seq<Byte>)
    ensures |mem| == MemorySize
    ensures mem[FontOffset .. FontOffset + |Fonts|] == Fonts
    ensures forall a :: 0 <= a < MemorySize && !(FontOffset <= a < FontOffset + |Fonts|) ==> mem[a] == 0
  {
    Overwrite(seq(MemorySize, _ => 0), FontOffset, Fonts)
  }

  /** `Emulator.new`. */
  function New(): (m: State)
    ensures Valid(m) && |m.memory| == MemorySize
    ensures m.pc == ProgramStart && m.index == 0 && m.stack == []
    ensures forall r :: 0 <= r < 16 ==> m.registers[r] == 0
    ensures m.delayTimer == 0 && m.soundTimer == 0 && m.pressedKey == None
    ensures m.memory[FontOffset .. FontOffset + |Fonts|] == Fonts
    ensures forall a :: 0 <= a < MemorySize && !(FontOffset <= a < FontOffset + |Fonts|) ==> m.memory[a] == 0
    ensures m.display == Display.New()
  {
    State(InitialMemory(), seq(16, _ => 0), 0, ProgramStart, [], 0, 0, None, Display.New())
  }

  // load_data

  /** The Ruby object handed to `load_data`: an integer, a string or an array. */
  datatype Value = Int(n: int) | Str(text: string) | Array(items: seq<Value>)

  datatype LoadError = NotAnArray | TooLarge | NonByteData

  datatype Result<T> = Ok(value: T) | Err(error: LoadError)

  predicate IsByte(v: Value) {
    v.Int? && 0 <= v.n <= 255
  }

  /** The array holds integers only, each in [0, 255]. */
  predicate AllBytes(items: seq<Value>) {
    forall k :: 0 <= k < |items| ==> IsByte(items[k])
  }

  /** The bytes of an array that holds bytes only. */
  function ProgramBytes(items: seq<Value>): (bytes: seq<Byte>)
    requires AllBytes(items)
    ensures |bytes| == |items|
    ensures forall k :: 0 <= k < |items| ==> items[k] == Int(bytes[k])
  {
    if items == [] then [] else [items[0].n] + ProgramBytes(items[1..])
  }

  /** `load_data`: the three checks in order, then the program copied to 0x200.
      The size check compares with the whole memory, so a program of more than
      3584 bytes runs past the end of the array, which grows to hold it. */
  function LoadData(m: State, data: Value): (r: Result<State>)
    requires Valid(m)
    ensures !data.Array? ==> r == Err(NotAnArray)
    ensures data.Array? && |data.items| > MemorySize ==> r == Err(TooLarge)
    ensures data.Array? && |data.items| <= MemorySize && !AllBytes(data.items) ==> r == Err(NonByteData)
    ensures r.Ok? <==> data.Array? && |data.items| <= MemorySize && AllBytes(data.items)
    ensures r.Ok? ==>
              && Valid(r.value)
              && r.value == m.(memory := r.value.memory)
              && |r.value.memory| == (if ProgramStart + |data.items| <= |m.memory| then |m.memory| else ProgramStart + |data.items|)
              && (forall k :: 0 <= k < |data.items| ==> data.items[k] == Int(r.value.memory[ProgramStart + k]))
              && (forall a :: 0 <= a < |m.memory| && !(ProgramStart <= a < ProgramStart + |data.items|) ==> r.value.memory[a] == m.memory[a])
  {
    if !data.Array? then Err(NotAnArray)
    else if |data.items| > MemorySize then Err(TooLarge)
    else if !AllBytes(data.items) then Err(NonByteData)
    else Ok(m.(memory := Overwrite(m.memory, ProgramStart, ProgramBytes(data.items))))
  }

  /** `fetch_opcode`: the big-endian word at the program counter, which moves
      on by two. */
  function Fetch(m: State): (r: (Word, State))
    requires m.pc + 1 < |m.memory|
    ensures r.0 / 256 == m.memory[m.pc] && r.0 % 256 == m.memory[m.pc + 1]
    ensures r.1 == m.(pc := m.pc + 2)
  {
    var opcode: Word := (m.memory[m.pc] as int) * 256 + m.memory[m.pc + 1] as int;
    (opcode, m.(pc := m.pc + 2))
  }

  /** `decrement_delay_timer`: one tick towards zero, never below it. */
  function DecrementDelayTimer(m: State): (r: State)
    ensures r == m.(delayTimer := r.delayTimer)
    ensures r.delayTimer == if m.delayTimer > 0 then m.delayTimer - 1 else 0
  {
    if m.delayTimer > 0 then m.(delayTimer := m.delayTimer - 1) else m
  }

  /** `decrement_sound_timer`: one tick towards zero, never below it. */
  function DecrementSoundTimer(m: State): (r: State)
    ensures r == m.(soundTimer := r.soundTimer)
    ensures r.soundTimer == if m.soundTimer > 0 then m.soundTimer - 1 else 0
  {
    if m.soundTimer > 0 then m.(soundTimer := m.soundTimer - 1) else m
  }

  /** `decrement_delay_timer` then `decrement_sound_timer`. */
  function TickTimers(m: State): State {
    DecrementSoundTimer(DecrementDelayTimer(m))
  }

  function Ticks(m: State, n: nat): State
    decreases n
  {
    if n == 0 then m else Ticks(TickTimers(m), n - 1)
  }

  /** After n ticks each timer has fallen by n, or stopped at zero. */
  lemma {:induction false} TimersAfterTicks(m: State, n: nat)
    ensures Ticks(m, n) == m.(delayTimer := Ticks(m, n).delayTimer, soundTimer := Ticks(m, n).soundTimer)
    ensures Ticks(m, n).delayTimer == if m.delayTimer > n then m.delayTimer - n else 0
    ensures Ticks(m, n).soundTimer == if m.soundTimer > n then m.soundTimer - n else 0
    decreases n
  {
    if n > 0 {
      TimersAfterTicks(TickTimers(m), n - 1);
    }
  }

  /** `pressed_key=`: the keypad input replaces the single pressed key. */
  function SetPressedKey(m: State, key: Option<Key>): (r: State)
    ensures r.pressedKey == key
    ensures r == m.(pressedKey := r.pressedKey)
  {
    m.(pressedKey := key)
  }

  /** Loading the program [1, 2] into a new interpreter and fetching yields 0x0102. */
  lemma FetchAfterLoad()
    ensures var r := LoadData(New(), Array([Int(1), Int(2)]));
      && r.Ok?
      && Fetch(r.value).0 == 0x0102
      && Fetch(r.value).1.pc == ProgramStart + 2
  {
    var r := LoadData(New(), Array([Int(1), Int(2)]));
    assert IsByte(Int(1)) && IsByte(Int(2));
    assert r.Ok?;
    assert r.value.memory[ProgramStart] == 1 && r.value.memory[ProgramStart + 1] == 2;
  }
}

=== FILE: opcodes.dfy ===
/** Decoding of 16-bit opcodes into instructions.

    `execute_opcode` splits the opcode into four nibbles and walks one long
    if/elsif chain. Here the chain becomes `Decode`, producing an `Instr` with
    its operands, and the opcodes no branch accepts become `Unknown`. The
    interpreter ignores some fields: the N of 5XYN and 9XYN, and the Y of the
    two shifts 8XY6 and 8XYE.
 */
module Opcodes {
  import opened Bits

  datatype Instr =
    | ClearScreen                          // 00E0
    | Return                               // 00EE
    | Jump(nnn: Address)                   // 1NNN
    | Call(nnn: Address)                   // 2NNN
    | SkipEqImm(x: Nibble, nn: Byte)       // 3XNN
    | SkipNeImm(x: Nibble, nn: Byte)       // 4XNN
    | SkipEqReg(x: Nibble, y: Nibble)      // 5XYN
    | SkipNeReg(x: Nibble, y: Nibble)      // 9XYN
    | LoadImm(x: Nibble, nn: Byte)         // 6XNN
    | AddImm(x: Nibble, nn: Byte)          // 7XNN
    | Move(x: Nibble, y: Nibble)           // 8XY0
    | OrReg(x: Nibble, y: Nibble)          // 8XY1
    | AndReg(x: Nibble, y: Nibble)         // 8XY2
    | XorReg(x: Nibble, y: Nibble)         // 8XY3
    | AddReg(x: Nibble, y: Nibble)         // 8XY4
    | SubReg(x: Nibble, y: Nibble)         // 8XY5
    | ShiftRight(x: Nibble)                // 8XY6
    | SubRevReg(x: Nibble, y: Nibble)      // 8XY7
    | ShiftLeft(x: Nibble)                 // 8XYE
    | SetIndex(nnn: Address)               // ANNN
    | JumpOffset(nnn: Address)             // BNNN
    | Random(x: Nibble, nn: Byte)          // CXNN
    | Draw(x: Nibble, y: Nibble, n: Nibble) // DXYN
    | SkipKey(x: Nibble)                   // EX9E
    | SkipNotKey(x: Nibble)                // EXA1
    | GetDelay(x: Nibble)                  // FX07
    | WaitKey(x: Nibble)                   // FX0A
    | SetDelay(x: Nibble)                  // FX15
    | SetSound(x: Nibble)                  // FX18
    | AddIndex(x: Nibble)                  // FX1E
    | FontChar(x: Nibble)                  // FX29
    | StoreBcd(x: Nibble)                  // FX33
    | StoreRegs(x: Nibble)                 // FX55
    | LoadRegs(x: Nibble)                  // FX65
    | Unknown(opcode: Word)

  // The four nibbles of an opcode, most significant first, and the low byte.

  function First(op: Word): Nibble { op / 0x1000 }
  function Second(op: Word): Nibble { (op / 0x100) % 0x10 }
  function Third(op: Word): Nibble { (op / 0x10) % 0x10 }
  function Fourth(op: Word): Nibble { op % 0x10 }
  function LowByte(op: Word): Byte { op % 0x100 }
  function LowAddress(op: Word): Address { op % 0x1000 }

  /** The opcode with nibbles a, b, c, d, most significant first. */
  function Compose(a: Nibble, b: Nibble, c: Nibble, d: Nibble): Word {
    a * 0x1000 + b * 0x100 + c * 0x10 + d
  }

  /** Splitting a composed opcode gives back its nibbles and immediates. */
  lemma SplitCompose(a: Nibble, b: Nibble, c: Nibble, d: Nibble)
    ensures var op := Compose(a, b, c, d);
      && First(op) == a && Second(op) == b && Third(op) == c && Fourth(op) == d
      && LowByte(op) == c * 0x10 + d && LowAddress(op) == b * 0x100 + c * 0x10 + d
  {
    var op := Compose(a, b, c, d);
    DivMod(a * 0x100 + b * 0x10 + c, d, 0x10);
    DivMod(a * 0x10 + b, c, 0x10);
    DivMod(a * 0x10 + b, c * 0x10 + d, 0x100);
    DivMod(a, b, 0x10);
    DivMod(a, b * 0x100 + c * 0x10 + d, 0x1000);
  }

  /** Every opcode is the composition of its nibbles. */
  lemma ComposeSplit(op: Word)
    ensures op == Compose(First(op), Second(op), Third(op), Fourth(op))
    ensures LowByte(op) == Third(op) * 0x10 + Fourth(op)
    ensures LowAddress(op) == Second(op) * 0x100 + LowByte(op)
  {
    var q1, d := op / 0x10, op % 0x10;
    var q2, c := q1 / 0x10, q1 % 0x10;
    var q3, b := q2 / 0x10, q2 % 0x10;
    DivMod(q2, c * 0x10 + d, 0x100);
    DivMod(q3, b * 0x100 + c * 0x10 + d, 0x1000);
  }

  /** An immediate byte is its two nibbles. */
  lemma SplitByte(nn: Byte)
    ensures nn == (nn / 0x10) * 0x10 + nn % 0x10
  {
  }

  /** A twelve-bit address is its three nibbles. */
  lemma SplitAddress(nnn: Address)
    ensures nnn / 0x100 < 0x10
    ensures nnn == (nnn / 0x100) * 0x100 + ((nnn / 0x10) % 0x10) * 0x10 + nnn % 0x10
  {
    SplitByte(nnn % 0x100);
  }

  /** Decoding a composed opcode runs the chain on its nibbles. */
  lemma DecodeCompose(a: Nibble, b: Nibble, c: Nibble, d: Nibble)
    ensures Decode(Compose(a, b, c, d)) == DecodeNibbles(a, b, c, d)
  {
    SplitCompose(a, b, c, d);
  }

  /** The if/elsif chain of `execute_opcode`, in the order the branches are tried. */
  function Decode(op: Word): (i: Instr)
    ensures i.Unknown? ==> i.opcode == op
  {
    ComposeSplit(op);
    DecodeNibbles(First(op), Second(op), Third(op), Fourth(op))
  }

  /** The chain on the four nibbles a, x, y, n of the opcode; NN is its low byte
      and NNN its low twelve bits. */
  function DecodeNibbles(a: Nibble, x: Nibble, y: Nibble, n: Nibble): Instr {
    var nn: Byte := y * 0x10 + n;
    var nnn: Address := x * 0x100 + nn;
    if a == 0 && x == 0 && nn == 0xE0 then ClearScreen
    else if a == 0 && x == 0 && nn == 0xEE then Return
    else if a == 1 then Jump(nnn)
    else if a == 2 then Call(nnn)
    else if a == 3 then SkipEqImm(x, nn)
    else if a == 4 then SkipNeImm(x, nn)
    else if a == 5 then SkipEqReg(x, y)
    else if a == 9 then SkipNeReg(x, y)
    else if a == 6 then LoadImm(x, nn)
    else if a == 7 then AddImm(x, nn)
    else if a == 8 && n == 0 then Move(x, y)
    else if a == 8 && n == 1 then OrReg(x, y)
    else if a == 8 && n == 2 then AndReg(x, y)
    else if a == 8 && n == 3 then XorReg(x, y)
    else if a == 8 && n == 4 then AddReg(x, y)
    else if a == 8 && n == 5 then SubReg(x, y)
    else if a == 8 && n == 7 then SubRevReg(x, y)
    else if a == 8 && n == 6 then ShiftRight(x)
    else if a == 8 && n == 0xE then ShiftLeft(x)
    else if a == 0xA then SetIndex(nnn)
    else if a == 0xB then JumpOffset(nnn)
    else if a == 0xC then Random(x, nn)
    else if a == 0xD then Draw(x, y, n)
    else if a == 0xE && nn == 0x9E then SkipKey(x)
    else if a == 0xE && nn == 0xA1 then SkipNotKey(x)
    else if a == 0xF && nn == 0x0A then WaitKey(x)
    else if a == 0xF && nn == 0x07 then GetDelay(x)
    else if a == 0xF && nn == 0x15 then SetDelay(x)
    else if a == 0xF && nn == 0x18 then SetSound(x)
    else if a == 0xF && nn == 0x1E then AddIndex(x)
    else if a == 0xF && nn == 0x29 then FontChar(x)
    else if a == 0xF && nn == 0x33 then StoreBcd(x)
    else if a == 0xF && nn == 0x55 then StoreRegs(x)
    else if a == 0xF && nn == 0x65 then LoadRegs(x)
    else Unknown(Compose(a, x, y, n))
  }

  /** The four nibbles of the canonical opcode of a known instruction: the
      fields the interpreter ignores are written as 0. */
  function Fields(i: Instr): (Nibble, Nibble, Nibble, Nibble)
    requires !i.Unknown?
  {
    match i
    case ClearScreen => (0, 0, 0xE, 0)
    case Return => (0, 0, 0xE, 0xE)
    case Jump(nnn) => (1, nnn / 0x100, (nnn / 0x10) % 0x10, nnn % 0x10)
    case Call(nnn) => (2, nnn / 0x100, (nnn / 0x10) % 0x10, nnn % 0x10)
    case SkipEqImm(x, nn) => (3, x, nn / 0x10, nn % 0x10)
    case SkipNeImm(x, nn) => (4, x, nn / 0x10, nn % 0x10)
    case SkipEqReg(x, y) => (5, x, y, 0)
    case SkipNeReg(x, y) => (9, x, y, 0)
    case LoadImm(x, nn) => (6, x, nn / 0x10, nn % 0x10)
    case AddImm(x, nn) => (7, x, nn / 0x10, nn % 0x10)
    case Move(x, y) => (8, x, y, 0)
    case OrReg(x, y) => (8, x, y, 1)
    case AndReg(x, y) => (8, x, y, 2)
    case XorReg(x, y) => (8, x, y, 3)
    case AddReg(x, y) => (8, x, y, 4)
    case SubReg(x, y) => (8, x, y, 5)
    case ShiftRight(x) => (8, x, 0, 6)
    case SubRevReg(x, y) => (8, x, y, 7)
    case ShiftLeft(x) => (8, x, 0, 0xE)
    case SetIndex(nnn) => (0xA, nnn / 0x100, (nnn / 0x10) % 0x10, nnn % 0x10)
    case JumpOffset(nnn) => (0xB, nnn / 0x100, (nnn / 0x10) % 0x10, nnn % 0x10)
    case Random(x, nn) => (0xC, x, nn / 0x10, nn % 0x10)
    case Draw(x, y, n) => (0xD, x, y, n)
    case SkipKey(x) => (0xE, x, 9, 0xE)
    case SkipNotKey(x) => (0xE, x, 0xA, 1)
    case GetDelay(x) => (0xF, x, 0, 7)
    case WaitKey(x) => (0xF, x, 0, 0xA)
    case SetDelay(x) => (0xF, x, 1, 5)
    case SetSound(x) => (0xF, x, 1, 8)
    case AddIndex(x) => (0xF, x, 1, 0xE)
    case FontChar(x) => (0xF, x, 2, 9)
    case StoreBcd(x) => (0xF, x, 3, 3)
    case StoreRegs(x) => (0xF, x, 5, 5)
    case LoadRegs(x) => (0xF, x, 6, 5)
  }
  /** The canonical opcode of an instruction. */
  function Encode(i: Instr): Word {
    if i.Unknown? then i.opcode
    else
      var (a, b, c, d) := Fields(i);
      Compose(a, b, c, d)
  }

  /** The opcodes no branch of `execute_opcode` accepts. */
  predicate Unassigned(op: Word) {
    var a := First(op);
    var n := Fourth(op);
    var nn := LowByte(op);
    || (a == 0 && op != 0x00E0 && op != 0x00EE)
    || (a == 8 && (8 <= n <= 0xD || n == 0xF))
    || (a == 0xE && nn != 0x9E && nn != 0xA1)
    || (a == 0xF && nn !in {0x07, 0x0A, 0x15, 0x18, 0x1E, 0x29, 0x33, 0x55, 0x65})
  }

  /** The opcode with the fields the interpreter ignores cleared: N of 5XYN and
      9XYN, Y of 8XY6 and 8XYE. */
  function Canonical(op: Word): Word {
    var a := First(op);
    if a == 5 || a == 9 then op - Fourth(op)
    else if a == 8 && (Fourth(op) == 6 || Fourth(op) == 0xE) then op - 0x10 * Third(op)
    else op
  }

  /** The nibble-level chain recovers an instruction from its fields. */
  lemma DecodeFields(i: Instr)
    requires !i.Unknown?
    ensures var (a, b, c, d) := Fields(i); DecodeNibbles(a, b, c, d) == i
  {
    if i.Jump? || i.Call? || i.SetIndex? || i.JumpOffset? {
      DecodeFieldsAddress(i);
    } else if i.SkipEqImm? || i.SkipNeImm? || i.LoadImm? || i.AddImm? || i.Random? {
      DecodeFieldsImmediate(i);
    } else if i.Move? || i.OrReg? || i.AndReg? || i.XorReg? || i.AddReg? || i.SubReg?
      || i.SubRevReg? || i.ShiftRight? || i.ShiftLeft? || i.SkipEqReg? || i.SkipNeReg? || i.Draw? {
      DecodeFieldsRegisters(i);
    } else {
      DecodeFieldsOther(i);
    }
  }

  lemma DecodeFieldsAddress(i: Instr)
    requires i.Jump? || i.Call? || i.SetIndex? || i.JumpOffset?
    ensures var (a, b, c, d) := Fields(i); DecodeNibbles(a, b, c, d) == i
  {
    SplitAddress(i.nnn);
  }

  lemma DecodeFieldsImmediate(i: Instr)
    requires i.SkipEqImm? || i.SkipNeImm? || i.LoadImm? || i.AddImm? || i.Random?
    ensures var (a, b, c, d) := Fields(i); DecodeNibbles(a, b, c, d) == i
  {
    SplitByte(i.nn);
  }

  lemma DecodeFieldsRegisters(i: Instr)
    requires i.Move? || i.OrReg? || i.AndReg? || i.XorReg? || i.AddReg? || i.SubReg?
      || i.SubRevReg? || i.ShiftRight? || i.ShiftLeft? || i.SkipEqReg? || i.SkipNeReg? || i.Draw?
    ensures var (a, b, c, d) := Fields(i); DecodeNibbles(a, b, c, d) == i
  {
  }

  lemma DecodeFieldsOther(i: Instr)
    requires !i.Unknown?
    requires !(i.Jump? || i.Call? || i.SetIndex? || i.JumpOffset?)
    requires !(i.SkipEqImm? || i.SkipNeImm? || i.LoadImm? || i.AddImm? || i.Random?)
    requires !(i.Move? || i.OrReg? || i.AndReg? || i.XorReg? || i.AddReg? || i.SubReg?
      || i.SubRevReg? || i.ShiftRight? || i.ShiftLeft? || i.SkipEqReg? || i.SkipNeReg? || i.Draw?)
    ensures var (a, b, c, d) := Fields(i); DecodeNibbles(a, b, c, d) == i
  {
  }

  /** Decoding an encoded instruction gives the instruction back. */
  lemma DecodeEncode(i: Instr)
    requires !i.Unknown?
    ensures Decode(Encode(i)) == i
  {
    var (a, b, c, d) := Fields(i);
    DecodeCompose(a, b, c, d);
    DecodeFields(i);
  }

  /** The fields of a decoded instruction are the opcode's nibbles, with the
      ignored ones cleared. */
  lemma FieldsDecode(a: Nibble, b: Nibble, c: Nibble, d: Nibble)
    requires !DecodeNibbles(a, b, c, d).Unknown?
    ensures Fields(DecodeNibbles(a, b, c, d)) == CanonicalFields(a, b, c, d)
  {
    if a in {1, 2, 0xA, 0xB} {
      DivMod(b, c * 0x10 + d, 0x100);
      DivMod(b * 0x10 + c, d, 0x10);
      DivMod(b, c, 0x10);
    } else if a in {3, 4, 6, 7, 0xC} {
      DivMod(c, d, 0x10);
    } else if a in {5, 8, 9, 0xD} {
      FieldsDecodeRegisters(a, b, c, d);
    } else {
      FieldsDecodeOther(a, b, c, d);
    }
  }

  /** The nibbles of an opcode with the fields the interpreter ignores cleared:
      N of 5XYN and 9XYN, Y of 8XY6 and 8XYE. */
  function CanonicalFields(a: Nibble, b: Nibble, c: Nibble, d: Nibble): (Nibble, Nibble, Nibble, Nibble) {
    (a, b, if a == 8 && (d == 6 || d == 0xE) then 0 else c, if a == 5 || a == 9 then 0 else d)
  }

  lemma FieldsDecodeRegisters(a: Nibble, b: Nibble, c: Nibble, d: Nibble)
    requires a in {5, 8, 9, 0xD}
    requires !DecodeNibbles(a, b, c, d).Unknown?
    ensures Fields(DecodeNibbles(a, b, c, d)) == CanonicalFields(a, b, c, d)
  {
  }

  lemma FieldsDecodeOther(a: Nibble, b: Nibble, c: Nibble, d: Nibble)
    requires a in {0, 0xE, 0xF}
    requires !DecodeNibbles(a, b, c, d).Unknown?
    ensures Fields(DecodeNibbles(a, b, c, d)) == CanonicalFields(a, b, c, d)
  {
    DivMod(c, d, 0x10);
  }

  /** Re-encoding a decoded opcode gives the opcode back, up to the fields the
      interpreter ignores. */
  lemma EncodeDecode(op: Word)
    requires !Decode(op).Unknown?
    ensures Encode(Decode(op)) == Canonical(op)
  {
    ComposeSplit(op);
    FieldsDecode(First(op), Second(op), Third(op), Fourth(op));
  }

  /** An opcode is reported as unknown exactly when it is unassigned. */
  lemma DecodeUnknown(op: Word)
    ensures Decode(op).Unknown? <==> Unassigned(op)
  {
    ComposeSplit(op);
  }
}

=== FILE: properties.dfy ===
/** Properties that span several instructions or several cycles: a call and
    its return, storing and reloading registers, waiting for a key, the skips,
    and what drawing the same sprite twice does.
 */
module Properties {
  import opened Bits
  import Display
  import Sprite
  import opened Machine
  import Opcodes
  import opened Interpreter

  /** The two bytes at `at` and `at + 1` are the opcode of instruction `i`. */
  predicate Holds(m: State, at: nat, i: Opcodes.Instr)
    requires !i.Unknown?
  {
    && at + 1 < |m.memory|
    && m.memory[at] == Opcodes.Encode(i) / 256
    && m.memory[at + 1] == Opcodes.Encode(i) % 256
  }

  /** Fetching where instruction `i` is stored and decoding yields `i`. */
  lemma FetchDecodes(m: State, i: Opcodes.Instr)
    requires !i.Unknown? && Holds(m, m.pc, i)
    ensures Opcodes.Decode(Fetch(m).0) == i
  {
    var w := Fetch(m).0;
    assert w == 256 * (w / 256) + w % 256;
    assert w == Opcodes.Encode(i);
    Opcodes.DecodeEncode(i);
  }

  /** 2NNN followed, at NNN, by 00EE: two cycles bring the program back to
      the instruction after the call, with the stack as it was. */
  lemma CallReturnCycles(m: State, nnn: Address, rnd: Byte)
    requires Valid(m) && rnd < 0xFF
    requires Holds(m, m.pc, Opcodes.Call(nnn))
    requires Holds(m, nnn, Opcodes.Return)
    ensures CanCycle(m)
    ensures CanCycle(Cycle(m, rnd))
    ensures Cycle(Cycle(m, rnd), rnd) == m.(pc := m.pc + 2)
  {
    FetchDecodes(m, Opcodes.Call(nnn));
    var m1 := Cycle(m, rnd);
    assert m1 == CallSubroutine(m.(pc := m.pc + 2), nnn);
    FetchDecodes(m1, Opcodes.Return);
    var m2 := Cycle(m1, rnd);
    assert m2 == ReturnFromSubroutine(m1.(pc := m1.pc + 2));
    CallThenReturn(m.(pc := m.pc + 2), nnn);
  }

  /** 1NNN sets the program counter to NNN; BNNN to NNN + V0, which is not
      wrapped and can reach 0x10FE. Nothing else changes. */
  lemma JumpCycle(m: State, nnn: Address, rnd: Byte)
    requires Valid(m) && rnd < 0xFF
    ensures Holds(m, m.pc, Opcodes.Jump(nnn)) ==> CanCycle(m) && Cycle(m, rnd) == m.(pc := nnn)
    ensures Holds(m, m.pc, Opcodes.JumpOffset(nnn)) ==>
      CanCycle(m) && Cycle(m, rnd) == m.(pc := nnn + m.registers[0]) && Cycle(m, rnd).pc <= 0x10FE
  {
    if Holds(m, m.pc, Opcodes.Jump(nnn)) {
      FetchDecodes(m, Opcodes.Jump(nnn));
    }
    if Holds(m, m.pc, Opcodes.JumpOffset(nnn)) {
      FetchDecodes(m, Opcodes.JumpOffset(nnn));
    }
  }

  /** FX0A with no key held: a cycle leaves the whole state as it was, so the
      interpreter keeps waiting. With key k held: VX gets k and execution
      moves on. */
  lemma WaitKeyCycle(m: State, x: Nibble, rnd: Byte)
    requires Valid(m) && rnd < 0xFF
    requires Holds(m, m.pc, Opcodes.WaitKey(x))
    ensures CanCycle(m)
    ensures m.pressedKey.None? ==> Cycle(m, rnd) == m
    ensures m.pressedKey.Some? ==>
      Cycle(m, rnd) == m.(pc := m.pc + 2, registers := m.registers[x := m.pressedKey.value])
  {
    FetchDecodes(m, Opcodes.WaitKey(x));
  }

  /** A skip moves the program counter on by four when its condition holds
      and by two otherwise, and changes nothing else. */
  lemma SkipCycle(m: State, i: Opcodes.Instr, rnd: Byte)
    requires Valid(m) && rnd < 0xFF
    requires IsSkip(i) && Holds(m, m.pc, i)
    ensures CanCycle(m)
    ensures Cycle(m, rnd) == m.(pc := m.pc + if SkipTaken(m, i) then 4 else 2)
  {
    FetchDecodes(m, i);
    assert SkipTaken(m.(pc := m.pc + 2), i) == SkipTaken(m, i);
  }

  /** FX65 right after FX55 with the same X loads back the values just stored:
      the registers, the index register and the memory stay as FX55 left them. */
  lemma StoreThenLoad(m: State, x: Nibble)
    requires Valid(m) && m.index <= |m.memory|
    ensures m.index + x < |StoreRegisters(m, x).memory|
    ensures LoadRegisters(StoreRegisters(m, x), x) == StoreRegisters(m, x)
  {
    var s := StoreRegisters(m, x);
    var l := LoadRegisters(s, x);
    assert l.registers == s.registers;
  }

  /** FX55 right after FX65 with the same X writes back the bytes just loaded:
      the memory is as it was. */
  lemma LoadThenStore(m: State, x: Nibble)
    requires Valid(m) && m.index + x < |m.memory|
    ensures StoreRegisters(LoadRegisters(m, x), x).memory == m.memory
  {
    var s := StoreRegisters(LoadRegisters(m, x), x);
    assert |s.memory| == |m.memory|;
    forall a | 0 <= a < |m.memory|
      ensures s.memory[a] == m.memory[a]
    {
      if m.index <= a <= m.index + x {
        assert s.memory[m.index + (a - m.index)] == LoadRegisters(m, x).registers[a - m.index];
      }
    }
  }

  /** Drawing the same sprite a second time, at the same place, erases
      nothing: `set_pixel` overwrites, so every pixel already holds its bit,
      the buffer stays as the first draw left it and VF is set. */
  lemma DrawTwice(m: State, x: Nibble, y: Nibble, n: Nibble)
    requires Valid(m) && m.index + n <= |m.memory|
    requires x != 15 && y != 15 && n > 0
    ensures var m1 := DrawSprite(m, x, y, n);
      var m2 := DrawSprite(m1, x, y, n);
      m2.display == m1.display && m2.registers[15] == 1
  {
    var m1 := DrawSprite(m, x, y, n);
    var anchor := Anchor(m, x, y);
    assert Anchor(m1, x, y) == anchor;
    assert SpriteRows(m1, n) == SpriteRows(m, n);
    Sprite.RedrawChangesNothing(m.display, anchor.0, anchor.1, SpriteRows(m, n));
  }
}

=== FILE: sprite.dfy ===
/** The pixel writes of DXYN and their effect on the framebuffer.

    The draw instruction walks the sprite rows r = 0 .. N-1 and, within a row,
    the bits c = 0 .. 7 of the sprite byte from the most significant down,
    calling `set_pixel(x + c, y + r, bit)` for each. Coordinates past the right
    or bottom edge are passed as they are and clipped by `set_pixel`. The flag
    the instruction computes is true when at least one of these calls returned
    false.
 */
module Sprite {
  import opened Bits
  import Display

  /** One call `set_pixel(x, y, value)`. */
  datatype Write = Write(x: int, y: int, value: int)

  /** The write for bit `col` (0 = most significant) of sprite row `row`,
      drawn with its top-left corner at (px, py). */
  function PixelWrite(px: int, py: int, rows: seq<Byte>, row: nat, col: nat): Write
    requires row < |rows| && col < 8
  {
    Write(px + col, py + row, Bit(rows[row], 7 - col))
  }

  /** The inner loop: columns `col` .. 7 of one sprite row. */
  function RowWrites(px: int, py: int, row: Byte, col: nat): (ws: seq<Write>)
    requires col <= 8
    ensures |ws| == 8 - col
    ensures forall k :: 0 <= k < |ws| ==> ws[k] == Write(px + col + k, py, Bit(row, 7 - (col + k)))
    decreases 8 - col
  {
    if col == 8 then [] else [Write(px + col, py, Bit(row, 7 - col))] + RowWrites(px, py, row, col + 1)
  }

  /** The outer loop: all rows, top to bottom, each left to right. */
  function SpriteWrites(px: int, py: int, rows: seq<Byte>): (ws: seq<Write>)
    ensures |ws| == 8 * |rows|
    ensures forall row, col :: 0 <= row < |rows| && 0 <= col < 8 ==> ws[8 * row + col] == PixelWrite(px, py, rows, row, col)
    decreases |rows|
  {
    if rows == [] then []
    else
      var first := RowWrites(px, py, rows[0], 0);
      var rest := SpriteWrites(px, py + 1, rows[1..]);
      assert forall row, col :: 1 <= row < |rows| && 0 <= col < 8 ==>
        PixelWrite(px, py + 1, rows[1..], row - 1, col) == PixelWrite(px, py, rows, row, col);
      first + rest
  }

  /** The calls, in order, each on the buffer the previous one left; the flag
      is true when at least one call returned false. */
  function Blit(b: Display.Buffer, ws: seq<Write>): (r: (Display.Buffer, bool))
    requires Display.Valid(b)
    ensures Display.Valid(r.0)
    decreases |ws|
  {
    if ws == [] then (b, false)
    else
      var step := Display.SetPixel(b, ws[0].x, ws[0].y, ws[0].value);
      var rest := Blit(step.0, ws[1..]);
      (rest.0, rest.1 || !step.1)
  }

  /** No two writes aim at the same coordinates. */
  predicate Distinct(ws: seq<Write>) {
    forall j, k :: 0 <= j < k < |ws| ==> ws[j].x != ws[k].x || ws[j].y != ws[k].y
  }

  /** Write `w` lands on cell `i`. */
  predicate Hits(w: Write, i: int) {
    Display.InBounds(w.x, w.y) && Display.Index(w.x, w.y) == i
  }

  /** Write `w` would leave buffer `b` unchanged, so `set_pixel` returns false. */
  predicate Misses(b: Display.Buffer, w: Write)
    requires Display.Valid(b)
  {
    Display.NoChange(b, w.x, w.y, w.value)
  }

  /** Writes to other coordinates neither see nor disturb a cell another write sets. */
  lemma OtherWriteKeepsMiss(b: Display.Buffer, w: Write, v: Write)
    requires Display.Valid(b)
    requires w.x != v.x || w.y != v.y
    ensures Misses(Display.SetPixel(b, w.x, w.y, w.value).0, v) == Misses(b, v)
    ensures Display.InBounds(w.x, w.y) ==> !Hits(v, Display.Index(w.x, w.y))
  {
    if Display.InBounds(w.x, w.y) && Display.InBounds(v.x, v.y) && Display.Index(w.x, w.y) == Display.Index(v.x, v.y) {
      Display.IndexInjective(w.x, w.y, v.x, v.y);
    }
  }

  /** After the first of several writes to distinct coordinates, the others
      miss exactly when they missed before it, and none lands on its cell. */
  lemma FirstWriteKeepsOthers(b: Display.Buffer, ws: seq<Write>)
    requires Display.Valid(b)
    requires Distinct(ws) && ws != []
    ensures Distinct(ws[1..])
    ensures var b1 := Display.SetPixel(b, ws[0].x, ws[0].y, ws[0].value).0;
      forall k :: 1 <= k < |ws| ==> Misses(b1, ws[k]) == Misses(b, ws[k])
    ensures Display.InBounds(ws[0].x, ws[0].y) ==>
      forall k :: 1 <= k < |ws| ==> !Hits(ws[k], Display.Index(ws[0].x, ws[0].y))
  {
    forall k | 1 <= k < |ws|
      ensures Misses(Display.SetPixel(b, ws[0].x, ws[0].y, ws[0].value).0, ws[k]) == Misses(b, ws[k])
      ensures Display.InBounds(ws[0].x, ws[0].y) ==> !Hits(ws[k], Display.Index(ws[0].x, ws[0].y))
    {
      OtherWriteKeepsMiss(b, ws[0], ws[k]);
    }
  }

  /** Over writes to distinct coordinates, the flag is set exactly when some
      write misses the buffer as it was before the first one. */
  lemma {:induction false} BlitFlag(b: Display.Buffer, ws: seq<Write>)
    requires Display.Valid(b)
    requires Distinct(ws)
    ensures Blit(b, ws).1 <==> exists k :: 0 <= k < |ws| && Misses(b, ws[k])
    decreases |ws|
  {
    if ws != [] {
      var b1 := Display.SetPixel(b, ws[0].x, ws[0].y, ws[0].value).0;
      FirstWriteKeepsOthers(b, ws);
      BlitFlag(b1, ws[1..]);
      if exists k :: 0 <= k < |ws| && Misses(b, ws[k]) {
        var k :| 0 <= k < |ws| && Misses(b, ws[k]);
        if k > 0 {
          assert Misses(b1, ws[1..][k - 1]);
        }
      }
      if exists k :: 0 <= k < |ws| - 1 && Misses(b1, ws[1..][k]) {
        var k :| 0 <= k < |ws| - 1 && Misses(b1, ws[1..][k]);
        assert Misses(b, ws[k + 1]);
      }
    }
  }

  /** Over writes to distinct coordinates, the buffer ends dirty exactly when it
      was dirty or some write does not miss the buffer as it was before. */
  lemma {:induction false} BlitDirty(b: Display.Buffer, ws: seq<Write>)
    requires Display.Valid(b)
    requires Distinct(ws)
    ensures Blit(b, ws).0.dirty <==> b.dirty || exists k :: 0 <= k < |ws| && !Misses(b, ws[k])
    decreases |ws|
  {
    if ws != [] {
      var b1 := Display.SetPixel(b, ws[0].x, ws[0].y, ws[0].value).0;
      FirstWriteKeepsOthers(b, ws);
      BlitDirty(b1, ws[1..]);
      if exists k :: 0 <= k < |ws| && !Misses(b, ws[k]) {
        var k :| 0 <= k < |ws| && !Misses(b, ws[k]);
        if k > 0 {
          assert !Misses(b1, ws[1..][k - 1]);
        }
      }
      if exists k :: 0 <= k < |ws| - 1 && !Misses(b1, ws[1..][k]) {
        var k :| 0 <= k < |ws| - 1 && !Misses(b1, ws[1..][k]);
        assert !Misses(b, ws[k + 1]);
      }
    }
  }

  /** A cell no write lands on keeps its value. */
  lemma {:induction false} BlitUntouched(b: Display.Buffer, ws: seq<Write>, i: int)
    requires Display.Valid(b)
    requires 0 <= i < Display.Size
    requires forall k :: 0 <= k < |ws| ==> !Hits(ws[k], i)
    ensures Blit(b, ws).0.cells[i] == b.cells[i]
    decreases |ws|
  {
    if ws != [] {
      var b1 := Display.SetPixel(b, ws[0].x, ws[0].y, ws[0].value).0;
      assert !Hits(ws[0], i);
      assert forall k :: 0 <= k < |ws| - 1 ==> ws[1..][k] == ws[k + 1];
      BlitUntouched(b1, ws[1..], i);
    }
  }

  /** Over writes to distinct coordinates, every write that is not clipped
      leaves its value in its cell. */
  lemma {:induction false} BlitWritten(b: Display.Buffer, ws: seq<Write>, k: int)
    requires Display.Valid(b)
    requires Distinct(ws)
    requires 0 <= k < |ws| && Display.InBounds(ws[k].x, ws[k].y)
    ensures Blit(b, ws).0.cells[Display.Index(ws[k].x, ws[k].y)] == ws[k].value
    decreases |ws|
  {
    var b1 := Display.SetPixel(b, ws[0].x, ws[0].y, ws[0].value).0;
    FirstWriteKeepsOthers(b, ws);
    if k == 0 {
      assert forall j :: 0 <= j < |ws| - 1 ==> ws[1..][j] == ws[j + 1];
      BlitUntouched(b1, ws[1..], Display.Index(ws[0].x, ws[0].y));
    } else {
      assert ws[1..][k - 1] == ws[k];
      BlitWritten(b1, ws[1..], k - 1);
    }
  }

  /** The writes of one sprite go to distinct coordinates. */
  lemma SpriteWritesDistinct(px: int, py: int, rows: seq<Byte>)
    ensures Distinct(SpriteWrites(px, py, rows))
  {
    var ws := SpriteWrites(px, py, rows);
    forall j, k | 0 <= j < k < |ws|
      ensures ws[j].x != ws[k].x || ws[j].y != ws[k].y
    {
      SpriteWriteIndex(px, py, rows, j);
      SpriteWriteIndex(px, py, rows, k);
      assert j == 8 * (j / 8) + j % 8 && k == 8 * (k / 8) + k % 8;
    }
  }

  /** The top-left-anchored rectangle of a sprite of `height` rows holds cell `i`. */
  predicate Covers(px: int, py: int, height: nat, i: int) {
    px <= i % 64 < px + 8 && py <= i / 64 < py + height
  }

  /** Write number k of a sprite is pixel k mod 8 of row k / 8. */
  lemma SpriteWriteIndex(px: int, py: int, rows: seq<Byte>, k: nat)
    requires k < 8 * |rows|
    ensures SpriteWrites(px, py, rows)[k] == PixelWrite(px, py, rows, k / 8, k % 8)
  {
    var row, col := k / 8, k % 8;
    assert k == 8 * row + col;
    assert SpriteWrites(px, py, rows)[8 * row + col] == PixelWrite(px, py, rows, row, col);
  }

  /** Drawing a sprite sets the flag exactly when some pixel of it is clipped
      or already holds its bit in the buffer before the draw. */
  lemma SpriteFlag(b: Display.Buffer, px: int, py: int, rows: seq<Byte>)
    requires Display.Valid(b)
    ensures Blit(b, SpriteWrites(px, py, rows)).1 <==>
      exists row, col :: 0 <= row < |rows| && 0 <= col < 8 && Misses(b, PixelWrite(px, py, rows, row, col))
  {
    var ws := SpriteWrites(px, py, rows);
    SpriteWritesDistinct(px, py, rows);
    BlitFlag(b, ws);
    if exists row, col :: 0 <= row < |rows| && 0 <= col < 8 && Misses(b, PixelWrite(px, py, rows, row, col)) {
      var row, col :| 0 <= row < |rows| && 0 <= col < 8 && Misses(b, PixelWrite(px, py, rows, row, col));
      assert Misses(b, ws[8 * row + col]);
    }
    if exists k :: 0 <= k < |ws| && Misses(b, ws[k]) {
      var k :| 0 <= k < |ws| && Misses(b, ws[k]);
      SpriteWriteIndex(px, py, rows, k);
    }
  }

  /** Drawing a sprite leaves the buffer dirty exactly when it was dirty or
      some pixel of the sprite changes. */
  lemma SpriteDirty(b: Display.Buffer, px: int, py: int, rows: seq<Byte>)
    requires Display.Valid(b)
    ensures Blit(b, SpriteWrites(px, py, rows)).0.dirty <==>
      b.dirty || exists row, col :: 0 <= row < |rows| && 0 <= col < 8 && !Misses(b, PixelWrite(px, py, rows, row, col))
  {
    var ws := SpriteWrites(px, py, rows);
    SpriteWritesDistinct(px, py, rows);
    BlitDirty(b, ws);
    if exists row, col :: 0 <= row < |rows| && 0 <= col < 8 && !Misses(b, PixelWrite(px, py, rows, row, col)) {
      var row, col :| 0 <= row < |rows| && 0 <= col < 8 && !Misses(b, PixelWrite(px, py, rows, row, col));
      assert !Misses(b, ws[8 * row + col]);
    }
    if exists k :: 0 <= k < |ws| && !Misses(b, ws[k]) {
      var k :| 0 <= k < |ws| && !Misses(b, ws[k]);
      SpriteWriteIndex(px, py, rows, k);
    }
  }

  /** Every pixel of the sprite that lands on screen takes its bit: the cell is
      overwritten, not XORed. */
  lemma SpriteWritten(b: Display.Buffer, px: int, py: int, rows: seq<Byte>)
    requires Display.Valid(b)
    ensures forall row, col :: 0 <= row < |rows| && 0 <= col < 8 && Display.InBounds(px + col, py + row) ==>
      Blit(b, SpriteWrites(px, py, rows)).0.cells[Display.Index(px + col, py + row)] == PixelWrite(px, py, rows, row, col).value
  {
    var ws := SpriteWrites(px, py, rows);
    forall row, col | 0 <= row < |rows| && 0 <= col < 8 && Display.InBounds(px + col, py + row)
      ensures Blit(b, ws).0.cells[Display.Index(px + col, py + row)] == PixelWrite(px, py, rows, row, col).value
    {
      PixelWritten(b, px, py, rows, row, col);
    }
  }

  /** One pixel of the sprite, on screen, ends holding its bit. */
  lemma PixelWritten(b: Display.Buffer, px: int, py: int, rows: seq<Byte>, row: nat, col: nat)
    requires Display.Valid(b)
    requires row < |rows| && col < 8 && Display.InBounds(px + col, py + row)
    ensures Blit(b, SpriteWrites(px, py, rows)).0.cells[Display.Index(px + col, py + row)] == PixelWrite(px, py, rows, row, col).value
  {
    var ws := SpriteWrites(px, py, rows);
    SpriteWritesDistinct(px, py, rows);
    assert ws[8 * row + col] == PixelWrite(px, py, rows, row, col);
    BlitWritten(b, ws, 8 * row + col);
  }

  /** A sprite's writes land only inside its rectangle. */
  lemma HitCovered(px: int, py: int, rows: seq<Byte>, k: nat, i: int)
    requires k < |SpriteWrites(px, py, rows)|
    ensures Hits(SpriteWrites(px, py, rows)[k], i) ==> Covers(px, py, |rows|, i)
  {
    var w := SpriteWrites(px, py, rows)[k];
    SpriteWriteIndex(px, py, rows, k);
    if Display.InBounds(w.x, w.y) {
      Display.IndexCoordinates(w.x, w.y);
    }
  }

  /** Every cell outside the sprite's rectangle keeps its value. */
  lemma SpriteUntouched(b: Display.Buffer, px: int, py: int, rows: seq<Byte>)
    requires Display.Valid(b)
    ensures forall i :: 0 <= i < Display.Size && !Covers(px, py, |rows|, i) ==>
      Blit(b, SpriteWrites(px, py, rows)).0.cells[i] == b.cells[i]
  {
    var ws := SpriteWrites(px, py, rows);
    forall i | 0 <= i < Display.Size && !Covers(px, py, |rows|, i)
      ensures Blit(b, ws).0.cells[i] == b.cells[i]
    {
      forall k | 0 <= k < |ws|
        ensures !Hits(ws[k], i)
      {
        HitCovered(px, py, rows, k, i);
      }
      BlitUntouched(b, ws, i);
    }
  }

  /** The two loops of DXYN on buffer `b`, sprite anchored at (px, py): the
      buffer afterwards and whether any `set_pixel` call returned false. */
  function Draw(b: Display.Buffer, px: int, py: int, rows: seq<Byte>): (r: (Display.Buffer, bool))
    requires Display.Valid(b)
    ensures Display.Valid(r.0)
    ensures r.1 <==> exists row, col :: 0 <= row < |rows| && 0 <= col < 8 && Misses(b, PixelWrite(px, py, rows, row, col))
    ensures r.0.dirty <==> b.dirty || exists row, col :: 0 <= row < |rows| && 0 <= col < 8 && !Misses(b, PixelWrite(px, py, rows, row, col))
    ensures forall row, col :: 0 <= row < |rows| && 0 <= col < 8 && Display.InBounds(px + col, py + row) ==>
      r.0.cells[Display.Index(px + col, py + row)] == PixelWrite(px, py, rows, row, col).value
    ensures forall i :: 0 <= i < Display.Size && !Covers(px, py, |rows|, i) ==> r.0.cells[i] == b.cells[i]
  {
    SpriteFlag(b, px, py, rows);
    SpriteDirty(b, px, py, rows);
    SpriteWritten(b, px, py, rows);
    SpriteUntouched(b, px, py, rows);
    Blit(b, SpriteWrites(px, py, rows))
  }

  /** Writes that all miss leave the buffer as it was, and the flag is set
      unless there were no writes at all. */
  lemma {:induction false} BlitAllMiss(b: Display.Buffer, ws: seq<Write>)
    requires Display.Valid(b)
    requires forall k :: 0 <= k < |ws| ==> Misses(b, ws[k])
    ensures Blit(b, ws) == (b, ws != [])
    decreases |ws|
  {
    if ws != [] {
      assert Misses(b, ws[0]);
      assert forall k :: 0 <= k < |ws| - 1 ==> ws[1..][k] == ws[k + 1];
      BlitAllMiss(b, ws[1..]);
    }
  }

  /** After a sprite is drawn, each of its writes would miss. */
  lemma DrawnPixelMisses(b: Display.Buffer, px: int, py: int, rows: seq<Byte>, k: nat)
    requires Display.Valid(b)
    requires k < |SpriteWrites(px, py, rows)|
    ensures Misses(Blit(b, SpriteWrites(px, py, rows)).0, SpriteWrites(px, py, rows)[k])
  {
    var w := SpriteWrites(px, py, rows)[k];
    SpriteWriteIndex(px, py, rows, k);
    if Display.InBounds(w.x, w.y) {
      PixelWritten(b, px, py, rows, k / 8, k % 8);
    }
  }

  /** Drawing a sprite again over itself: every pixel already holds its bit,
      so the buffer is unchanged and every `set_pixel` call returns false. */
  lemma RedrawChangesNothing(b: Display.Buffer, px: int, py: int, rows: seq<Byte>)
    requires Display.Valid(b)
    ensures var b1 := Draw(b, px, py, rows).0;
      Draw(b1, px, py, rows) == (b1, rows != [])
  {
    var ws := SpriteWrites(px, py, rows);
    var b1 := Blit(b, ws).0;
    forall k | 0 <= k < |ws|
      ensures Misses(b1, ws[k])
    {
      DrawnPixelMisses(b, px, py, rows, k);
    }
    BlitAllMiss(b1, ws);
  }
}
